=== FILE: README.md ===
# finance-now: the news and market-data layer, in Dafny

This project models the data layer of finance-now, a financial news
dashboard. The model covers these parts:

- **Live news aggregator** (`src/services/realApi.ts`). It queries Tavily
  search, an AkShare backend and an OpenBB backend for a category. AkShare is
  asked for mainland shares and for the wildcard category `all`, OpenBB for
  US shares and for `all`, and Tavily always. Each
  provider's reply is normalised into news items, the three lists are
  concatenated, and the result is sorted newest first. A search sends a
  non-blank query to Tavily alone.
- **Synthetic news service** (`src/services/api.ts`). It generates batches of
  articles from fixed title and publisher pools and filters them for search.
- **News entry point** (`src/services/index.ts`). It picks one of the two
  news services from `VITE_USE_REAL_API` and reports the configuration.
- **Market snapshot** (`src/services/realStockApi.ts`,
  `src/services/stockApi.ts`). It covers the Eastmoney quote and board
  lists, the AkShare fallback tier, and the synthetic shares and boards.
  These are chained Eastmoney, then AkShare, then synthetic.
- **Feed state** (`src/hooks/useNews.ts`). It tracks `news`, `loading` and
  `error` through a load.
- **Sidebar** (`src/components/Sidebar.tsx`). It computes the per-source and
  per-category counts and the five most frequent publishers.

Everything the program reaches outside itself becomes an input:

- **Network.** A reply is a `Response`: either a failure to fetch, or a
  status with a body that did or did not parse as JSON. The news adapters
  return the requests they made alongside their items (`Fetched`), and the
  snapshot chain returns the requests of the tiers it reached (`Served`),
  so "no request was made" is a provable statement. The Eastmoney calls
  return a bare `Result`; their one request is attached by the chain.
- **Runtime.** `Date.now()`, the host name `new URL(u)` extracts, and the way
  a template literal prints a number form a `Runtime` record.
- **Randomness.** Each `Math.random()` draw is a value of the newtype
  `Unit`, which is the interval [0, 1). Each generated record takes its own
  draw record from a stream indexed by position.

Four sorts use `Array.prototype.sort`: the merged news feed
(`realApi.ts:145`), the synthetic quotes (`stockApi.ts:47`), the synthetic
boards (`stockApi.ts:80`) and the publisher ranking (`Sidebar.tsx:36`).
ECMA-262 requires that sort to be stable since its 2019 edition (section
23.1.3.30 of the 2023 edition). All four are modelled by one insertion
sort, `StableSort.SortDesc`. It is
proved to return:

- a permutation of its input;
- ordered by the descending key;
- with equal keys in input order;
- the only arrangement with those three properties.

So any conforming engine's result is this one.

Modules follow the source files:

| module | file |
|---|---|
| `RealApi` | `realApi.ts` |
| `MockApi` | `api.ts` |
| `ServiceIndex` | `index.ts` |
| `RealStockApi` | `realStockApi.ts` |
| `StockApi` | `stockApi.ts` |
| `UseNews` | `useNews.ts` |
| `Sidebar` | `Sidebar.tsx` |

Shared modules:

- `Types`: the records of `src/types/index.ts` and the I/O shapes.
- `Js`: JavaScript's `||` on optional JSON fields.
- `Text`: trimming, lower-casing, `includes`, `replace`, decimal text.
- `Seqs`: filter, take, distinctness.
- `StableSort`: the sort described above.
- `Wrappers`: `Option` and `Result`.

Where the code and its design description disagree, the model follows the
code:

- A board's member count from Eastmoney is rising + falling, or 100 when
  both are 0 or missing. A synthetic board's rising + falling never exceeds
  its member count, and is usually below it. So "member count = rising +
  falling" holds for neither (`RealStockApi.SectorOf`,
  `StockApi.MockBoard`).
- A fallback tier that answers with an empty list still ends the chain.
  Only a thrown error moves on to the next tier. The AkShare tier never
  throws, because it catches its own failures and answers with synthetic
  data. So the chain's last fallback is unreachable, and when the live
  providers are used the answer never comes from that last fallback
  (`StockApi.FetchHotStocks`).
- The page's feed hook imports the synthetic service directly, not the
  entry point that chooses by mode (`UseNews`).
- The news entry point is live only for `VITE_USE_REAL_API === 'true'`. The
  market snapshot is live unless it is `'false'`. When the variable is unset,
  the news is synthetic and the snapshot is live
  (`ServiceIndex.ModeDefaultsDiffer`).
- The sidebar shows the market widgets for mainland shares and the wildcard
  (`Sidebar.WidgetsFollowAkShareDomain`). The page, however, renders the
  sidebar with the news alone and no `category` (`src/App.tsx:65`). The
  comparison then sees `undefined`, so as the application is wired the
  widgets never show. The model states the component's own rule.

## Model

| member | source | states |
|---|---|---|
| RealApi.ResolveConfig | src/services/realApi.ts:5-6 | each backend URL is the environment value when it is non-empty, otherwise `http://localhost:8000` / `http://localhost:8001` |
| RealApi.Summary | src/services/realApi.ts:39 | the summary exists exactly when the text does, is a prefix of it of at most 200 characters, is the whole text when that is short and exactly 200 characters otherwise |
| RealApi.ReadMinutes | src/services/realApi.ts:40 | the read time is at least 1; it is 2 for a missing or empty text, otherwise the least m with length ≤ 1000·m |
| RealApi.PublisherDropsWww | src/services/realApi.ts:37 | a host starting with `www.` loses exactly that prefix; a host without `www.` is the publisher unchanged |
| RealApi.ItemIdInjective | src/services/realApi.ts:32 | ids built from one prefix and one clock reading are equal only for equal indexes |
| RealApi.TavilyItems | src/services/realApi.ts:31-45 | when every link has a host name, item i is hit i normalised with its host, so there are as many items as hits; when any link has none, the thrown error empties the whole mapping |
| RealApi.TavilyNews | src/services/realApi.ts:9-46 | exactly one POST with the query suffixed ` finance news`; every item is a Tavily item of the requested category with a short summary and a positive read time; a failed fetch, a non-2xx status, an unparsable body or a missing `results` give `[]`; a good reply gives the mapping of its hits |
| RealApi.TavilyItemFields | src/services/realApi.ts:31-41 | on a good reply each item's publisher, timestamp (publication date or now), summary and read time come from its hit, and the ids of one reply are pairwise distinct |
| RealApi.AkShareNews | src/services/realApi.ts:49-84 | outside mainland shares and the wildcard, no request and no items; otherwise one GET to `/stock/realtime/hot`, `[]` unless the envelope says `success` with an array, and then min(10, n) items, item i built from quote i with index i; all AkShare, mainland shares, publisher 东方财富, read time 1, stamped now |
| RealApi.AkShareSentiment | src/services/realApi.ts:74 | an AkShare item is positive exactly when its change percent (English key, then Chinese key, else 0) is above zero, and never neutral |
| RealApi.OpenBBNews | src/services/realApi.ts:87-121 | outside US shares and the wildcard, no request and no items; otherwise one GET to `/news/market` and one item per article of a successful envelope, item i built from article i, all OpenBB, US shares, with a non-empty publisher and a short summary; `[]` on any failure |
| RealApi.FetchNewsIsMergedAndSorted | src/services/realApi.ts:136-145 | the feed is a permutation of Tavily ++ AkShare ++ OpenBB items, newest first, equal timestamps in concatenation order, and the only such arrangement |
| RealApi.FetchNewsRouting | src/services/realApi.ts:124-140 | Tavily is always asked with the category's phrase; AkShare is asked iff the category is mainland shares or the wildcard; OpenBB iff US shares or the wildcard; at most three requests |
| RealApi.TavilyOnlyCategories | src/services/realApi.ts:124-145 | for crypto and macro the only request is Tavily's and every item is a Tavily item of that category, whatever the backends would reply |
| RealApi.SearchNews | src/services/realApi.ts:149-156 | a blank query is the full wildcard feed; any other query makes exactly one Tavily request and yields only Tavily items under the wildcard category |
| Text.TrimEmptyIffBlank | src/services/realApi.ts:150 | `trim()` is empty exactly for strings made only of ECMAScript white space and line terminators |
| Text.IndexOf | src/services/api.ts:113-114 | the position found is an occurrence and no earlier position is; none means no occurrence anywhere |
| Text.ContainsIff | src/services/api.ts:113-114 | `includes` holds iff the pattern occurs at some position; every string includes the empty string |
| StableSort.SortDesc | src/services/realApi.ts:145 | the sort returns a permutation of its input, ordered by descending key, with equal keys in input order |
| StableSort.SortDescIsTheStableSort | src/services/realApi.ts:145 | any ordered arrangement that keeps equal keys in input order equals the sort's result |
| RealStockApi.StockOf | src/services/realStockApi.ts:30-44 | each of price, change, high, low, open and previous close is the raw value divided by 100 (times 100 gives it back); percentages, volume and amount pass through; turnover is 0 when missing |
| RealStockApi.SectorOf | src/services/realStockApi.ts:80-94 | rising and falling counts are the raw counts or 0; the member count is their sum, or 100 when that is 0, and never 0; the leader is the raw one when non-empty, else `-`; amount and inflow default to 0 |
| RealStockApi.ReplyError | src/services/realStockApi.ts:19-27 | a failed fetch keeps its message, a non-2xx status and a body without `data.diff` have their own messages, a good body has none |
| RealStockApi.FetchRealHotStocks | src/services/realStockApi.ts:4-51 | the call fails exactly when the reply is faulty, with its message; otherwise it is the first min(10, n) rows, converted, in reply order |
| RealStockApi.FetchRealHotSectors | src/services/realStockApi.ts:54-101 | the call fails exactly when the reply is faulty, with its message; otherwise it is the first min(10, n) rows, converted, in reply order |
| StockApi.MockQuote | src/services/stockApi.ts:22-46 | a synthetic quote keeps the share's code, name and base as previous close; change percent in [-10, 10); price = previous close + change; change = base · percent / 100; low ≤ price ≤ high; volume, amount, turnover and amplitude in their ranges |
| StockApi.MockHotStocks | src/services/stockApi.ts:8-48 | ten quotes, a permutation of one quote per listed share, ordered by absolute change, largest first |
| StockApi.MockHotStocksShape | src/services/stockApi.ts:9-47 | every listed share appears, and every entry is a listed share with its own base price and a consistent quote |
| StockApi.UpRatio | src/services/stockApi.ts:67 | the rising share is in [0.6, 0.9) on an up day and in [0.3, 0.6) otherwise |
| StockApi.PortionsFit | src/services/stockApi.ts:75-76 | floor(n·r) + floor(n·(1−r)) ≤ n, and the rising count is at least the falling count when r ≥ 0.5 |
| StockApi.MockBoard | src/services/stockApi.ts:64-79 | board i has the i-th name and leader, code `BK` followed by 1000 + i, change in [-8, 8), 20–119 members, rising + falling ≤ members, rising ≥ falling on an up day, amount and inflow in range |
| StockApi.MockHotSectors | src/services/stockApi.ts:51-81 | fifteen boards, a permutation of the generated ones, ordered by absolute change, largest first |
| StockApi.MockHotSectorsShape | src/services/stockApi.ts:64-80 | every board has 20–119 members, rising + falling within that count, and a change in [-8, 8) |
| StockApi.BoardCodesDiffer | src/services/stockApi.ts:71 | distinct board positions get distinct codes |
| StockApi.MockBoardCodesDistinct | src/services/stockApi.ts:71 | no two boards of the list share a code |
| StockApi.AkShareBaseUrl | src/services/stockApi.ts:4 | the AkShare base URL is the environment value when non-empty, otherwise `http://localhost:8000` |
| StockApi.AkShareTier | src/services/stockApi.ts:84-104 | the tier never fails: a good reply gives its list (`[]` when the field is missing), any failure gives the synthetic list |
| StockApi.RunTiersFirstOk | src/services/stockApi.ts:131-145 | a fallback chain serves the first tier that does not fail, having made exactly the requests of the tiers up to and including it |
| StockApi.RunTiersAllFail | src/services/stockApi.ts:131-145 | when every tier fails, each was asked once, in order, and the synthetic list is served |
| StockApi.Chain | src/services/stockApi.ts:130-151 | the nested try/catch is the fallback chain Eastmoney, AkShare, synthetic when live, and the synthetic list without requests otherwise; when live, the synthetic list is served exactly when both tiers fail |
| StockApi.FetchHotStocks | src/services/stockApi.ts:130-151 | synthetic mode makes no request and serves synthetic quotes; live mode asks Eastmoney first, makes at most two requests, the second being `/stock/hot` on the AkShare base URL, never reaches the final fallback, and stops at Eastmoney when it answers |
| StockApi.FetchHotSectors | src/services/stockApi.ts:153-174 | synthetic mode makes no request and serves synthetic boards; live mode asks Eastmoney first, makes at most two requests, the second being `/sector/hot` on the AkShare base URL, never reaches the final fallback, and stops at Eastmoney when it answers |
| StockApi.HotStocksAfterEastmoneyFails | src/services/stockApi.ts:135-145 | after an Eastmoney failure the AkShare tier answers after exactly two requests: its backend's list on a good reply, synthetic quotes otherwise |
| StockApi.HotSectorsAfterEastmoneyFails | src/services/stockApi.ts:158-168 | after an Eastmoney failure the AkShare tier answers after exactly two requests: its backend's boards on a good reply, synthetic boards otherwise |
| MockApi.TitlesFor | src/services/api.ts:64-66 | ten titles per category, forty pooled for the wildcard |
| MockApi.PublishersFor | src/services/api.ts:68-70 | five publishers per category, twenty pooled for the wildcard |
| MockApi.MockArticle | src/services/api.ts:72-94 | article i is in the requested category (a concrete one for the wildcard), takes title i mod pool size, a publisher from the pool, a read time of 1–5 minutes, a timestamp within the last 179 minutes and link `…/news/i` |
| MockApi.GenerateMockNews | src/services/api.ts:4-95 | a batch of exactly `count` articles, article i built from draw i |
| MockApi.ArticleCategory | src/services/api.ts:73-75 | an article is filed under the requested category, or under one of the four concrete ones for the wildcard |
| MockApi.Stamp | src/services/api.ts:89 | an article is stamped at most 179 whole minutes before the current time |
| MockApi.GeneratedBatchShape | src/services/api.ts:72-94 | titles cycle through the pool in order, no article is of the wildcard category, every article is of the requested one otherwise, and read times are 1–5 |
| MockApi.GeneratedLinksDistinct | src/services/api.ts:87 | no two articles of a batch share a link |
| MockApi.FetchNews | src/services/api.ts:97-107 | fifty articles, all of the requested category unless it is the wildcard |
| MockApi.SearchNews | src/services/api.ts:109-116 | at most a hundred articles, all taken from the wildcard batch and kept in batch order (a subsequence of it); an article of the batch is returned iff its lower-cased title or publisher includes the lower-cased query, and then as many times as it occurs in the batch |
| MockApi.SearchNewsIsTheMatches | src/services/api.ts:111-115 | any list of batch articles in batch order that holds each matching article as often as the batch does and no other article is the search result |
| Seqs.FilterCounts | src/services/api.ts:112-115 | a filter keeps each passing element exactly as often as the input holds it and drops each failing one |
| Seqs.FilterConcat | src/services/api.ts:112-115 | filtering a concatenation is filtering each part in turn, so the search keeps the matching articles in batch order |
| Seqs.FilterIsSubsequence | src/services/api.ts:112-115 | what a filter keeps is its input with elements left out, the rest in their order |
| Seqs.FilterUnique | src/services/api.ts:112-115 | the filter is the only subsequence that keeps each passing element as often as the input holds it and drops each failing one |
| Seqs.FilterSingle | src/services/api.ts:112-115 | a single element survives exactly when it passes; with `FilterConcat` this fixes the result element by element |
| MockApi.SearchEmptyKeepsAll | src/services/api.ts:111-115 | the empty query returns the whole batch of a hundred |
| ServiceIndex.ModeDefaultsDiffer | src/services/index.ts:10 | `'true'` makes news and snapshots live, `'false'` makes both synthetic, any other value or none makes news synthetic and snapshots live |
| ServiceIndex.FetchNews | src/services/index.ts:17-20 | the feed is the live aggregator's in live mode and a synthetic batch of fifty otherwise |
| ServiceIndex.FetchNewsDefaultsToAll | src/services/index.ts:17 | without a category the wildcard feed is served; in synthetic mode each of its articles carries a concrete category |
| ServiceIndex.SearchNews | src/services/index.ts:22-25 | live, a blank query gives the aggregator's wildcard feed and any other query only Tavily items under the wildcard; synthetic, at most a hundred articles, each matching the query |
| ServiceIndex.GetApiConfig | src/services/index.ts:28-33 | the report shows the mode, 已配置 (configured) exactly when a non-empty Tavily key is set, and each backend URL or its bare `localhost:` default |
| ServiceIndex.ReportedUrlsMatchOnlyWhenSet | src/services/index.ts:31-32 | a reported backend URL equals the one the aggregator uses when it is set to a non-empty value, and differs from it when unset or empty |
| UseNews.FirstLoad | src/hooks/useNews.ts:5-8 | the first load starts from no articles, loading and no error, and ends not loading: with no articles and an error if it fails, with exactly its articles and no error if it succeeds |
| UseNews.CallFor | src/hooks/useNews.ts:15-19 | a query with a non-white-space character is searched, otherwise the category feed is loaded |
| UseNews.Begin | src/hooks/useNews.ts:11-12 | a load starts loading and clears the error, keeping the articles |
| UseNews.Finish | src/hooks/useNews.ts:20-25 | loading ends; a result replaces the articles; a failure keeps them and sets an error |
| UseNews.LoadNews | src/hooks/useNews.ts:10-26 | after a load nothing is loading; a success shows its articles with no error; a failure keeps the previous articles and shows the error's message, or `Failed to load news` for a non-`Error` value |
| UseNews.LoadFromMockNeverFails | src/hooks/useNews.ts:10-26 | against the synthetic service a load always ends without error, with fifty articles for a feed and at most a hundred for a search |
| Sidebar.WidgetsFollowAkShareDomain | src/components/Sidebar.tsx:12 | the market widgets show exactly for the categories the AkShare adapter serves: mainland shares and the wildcard |
| Sidebar.SourcesPartition | src/components/Sidebar.tsx:16-20 | the three per-source counts add up to the number of items |
| Sidebar.CategoriesPartition | src/components/Sidebar.tsx:21-26 | the four per-category counts plus the wildcard-category count add up to the number of items |
| Seqs.CountIsIndexCount | src/components/Sidebar.tsx:16-26 | `filter(...).length` is the number of positions holding an element that passes |
| Sidebar.SourceCount | src/components/Sidebar.tsx:17-19 | a provider's count is the number of articles whose source is that provider |
| Sidebar.CategoryCount | src/components/Sidebar.tsx:22-25 | a category's count is the number of articles filed under that category |
| Sidebar.ComputeStats | src/components/Sidebar.tsx:14-27 | total is the item count; `tavily`, `akshare` and `openbb` are the numbers of articles from each provider, and the four category fields the numbers of articles filed under each category; source counts sum to the total, category counts to the total less wildcard-category items |
| Sidebar.Bump | src/components/Sidebar.tsx:32 | one more occurrence of a publisher: its entry is added or incremented, the others are untouched, the publishers stay distinct |
| Sidebar.TallyOf | src/components/Sidebar.tsx:31-34 | one entry per distinct publisher, each counting exactly its occurrences, and every publisher present |
| Sidebar.Ranked | src/components/Sidebar.tsx:30-36 | the tally entries, permuted into non-increasing count order |
| Sidebar.RankedEntries | src/components/Sidebar.tsx:30-36 | the ranked list keeps distinct publishers with their exact counts, and has every publisher |
| Sidebar.CutKeepsTheTop | src/components/Sidebar.tsx:36-37 | a publisher left out of the first five has a count no larger than the fifth's |
| Sidebar.TopPublishers | src/components/Sidebar.tsx:30-37 | at most five distinct publishers with their exact counts in non-increasing order; a publisher missing from the list means the list is full and its count is at most the fifth's |

## Left out

- Network I/O, `Promise.all` concurrency, `setTimeout` delays and console
  logging: replies are inputs, and the three adapters' request lists are
  concatenated in source order. Their real order is not significant.
- The Tavily API key and the request bodies' fixed fields (`search_depth`,
  `max_results`, `include_answer`), and the `Referer` header. A request is
  its method, URL and, for Tavily, the query.
- `toFixed(2)` / `parseFloat` rounding in the synthetic generators:
  synthetic values are exact reals. Rounding keeps the order of the
  absolute changes, so the synthetic lists are sorted the same way except
  among entries whose rounded changes tie: the source keeps those in
  generation order, while the model orders them by their exact values.
- StockApi.MockHotStocks: sorted on the exact absolute change rather than
  the rounded one, so the order of rounded ties is not the source's.
- StockApi.MockHotSectors: sorted on the exact absolute change rather than
  the rounded one, so the order of rounded ties is not the source's.
- Floating point: prices and percentages are reals, so Eastmoney's `/ 100`
  is exact.
- Date parsing: `published_date` and `date` arrive as an optional instant.
  An unparsable date string, which JavaScript turns into an invalid `Date`,
  is not modelled.
- URL parsing: `new URL(u).hostname` is a runtime parameter that may fail.
  Its failure empties the whole Tavily reply.
- `NaN`, booleans and other JSON types in provider fields. Optional fields
  are strings or numbers that may be missing. Fields the source reads
  without a default are required: a Tavily hit's and an OpenBB article's
  `title` and `url`, and every numeric Eastmoney price field. A missing one
  there yields `undefined` in an item, or `NaN` after `/ 100`, and neither
  is representable here.
- String lengths count code points, not UTF-16 code units.
  `toLowerCase` folds only A–Z.
- One `Date.now()` reading per call, where the source reads the clock once
  per item.
- `Object.entries` lists integer-like keys first, in numeric order. The
  tally here keeps first-occurrence order for every key. The order matters
  only among publishers with equal counts.
- React rendering, animation, the theme hook, effect scheduling, and races
  between overlapping loads. `refresh` runs the same load as the effect, so
  `UseNews.LoadNews` stands for both.
- RealApi.TavilyNews: the pairwise distinctness of the ids is stated by
  `RealApi.TavilyItemFields` for a good reply, not in the adapter's own
  contract.
- Text.ReplaceFirst: only the length of the result and the no-occurrence
  case are stated in its contract. The `www.` stripping the source relies
  on is stated by `RealApi.PublisherDropsWww`.
- RealStockApi.SectorOf: the request's field list names neither `f62` nor
  `f128`. In practice the inflow is therefore 0 and the leader `-`. The
  model lets a row carry them, as the code reads them.
- Sidebar.TallyOf: publishers are assumed not to be names of
  `Object.prototype` properties. The tally is a plain object, so
  `__proto__` as a publisher is not counted, and `constructor` or
  `toString` start from a function instead of 0, giving a string and `NaN`
  comparisons in the sort. `Sidebar.TopPublishers` carries the same
  assumption.
- ServiceIndex.GetApiConfig: the report says 未配置 (not configured) when
  no key is set in the environment. The aggregator then still uses its
  built-in key, which the model does not represent.

=== FILE: js.dfy ===
/** JavaScript's `||` on the optional fields of a decoded JSON object, and
    how a template literal prints such a field. A field is absent
    (`undefined`) or holds a value; `""` and `0` are the falsy values. */
module Js {
  import opened Wrappers

  /** `a || b` on strings: `a` when it is a non-empty string, else `b`. */
  function OrStr(a: Option<string>, b: Option<string>): (r: Option<string>)
  {
    if a.Some? && a.value != "" then a else b
  }

  /** `a || b` on numbers: `a` when it is a non-zero number, else `b`. */
  function OrNum(a: Option<real>, b: Option<real>): (r: Option<real>)
  {
    if a.Some? && a.value != 0.0 then a else b
  }

  /** `${s}` for a string field. */
  function StrText(a: Option<string>): string {
    a.GetOr("undefined")
  }

  /** `${x}` for a number field, given how the runtime prints numbers. */
  function NumText(a: Option<real>, numberText: real -> string): string {
    match a
    case Some(x) => numberText(x)
    case None => "undefined"
  }
}

=== FILE: mock_api.dfy ===
/** The synthetic news service (src/services/api.ts): a generator of
    plausible articles, the feed built from it, and a search that filters a
    larger generated batch by title and publisher. */
module MockApi {
  import opened Wrappers
  import opened Types
  import opened Seqs
  import opened Text

  const UsTitles: seq<string> := [
    "Apple stock surges on strong iPhone sales projections",
    "Tesla deliveries beat expectations for Q1 2026",
    "Nvidia announces new AI chip breakthrough",
    "Tech sector rally continues as Fed signals rate cuts",
    "Amazon splits stock 20-for-1 amid record profits",
    "Microsoft Azure revenue growth accelerates",
    "Meta unveils new VR headset, stock jumps 8%",
    "Google antitrust case reaches critical phase",
    "AMD gains market share in data center chips",
    "Warren Buffett increases stake in energy sector"
  ]

  const CnTitles: seq<string> := [
    "贵州茅台市值突破3万亿，创历史新高",
    "宁德时代发布新一代电池技术",
    "A股三大指数集体上涨，创业板涨超2%",
    "比亚迪1月销量同比增长超50%",
    "央行宣布降准0.5个百分点",
    "阿里巴巴回港上市获批",
    "腾讯发布Q4财报，净利润超预期",
    "中国平安股价创年内新高",
    "上证指数突破3500点关口",
    "北向资金连续10日净流入"
  ]

  const CryptoTitles: seq<string> := [
    "Bitcoin breaks $70,000 as institutional demand surges",
    "Ethereum upgrade successful, gas fees plummet",
    "SEC approves spot Bitcoin ETF applications",
    "Binance launches zero-fee trading promotion",
    "Solana DeFi TVL reaches all-time high",
    "Crypto market cap surpasses $3 trillion",
    "Stablecoin regulations gain bipartisan support",
    "NFT market shows signs of recovery",
    "Bitcoin mining difficulty hits new record",
    "PayPal expands crypto services to 50 countries"
  ]

  const MacroTitles: seq<string> := [
    "Fed holds rates steady, signals two cuts in 2026",
    "US GDP growth beats forecasts at 3.2% annualized",
    "China announces stimulus package to boost consumption",
    "ECB cuts rates by 25bp, euro weakens",
    "US inflation falls to 2.4%, lowest since 2021",
    "Japan raises interest rates for first time in decades",
    "Oil prices surge on OPEC+ production cuts",
    "US unemployment rate drops to 3.6%",
    "Global trade tensions ease as talks progress",
    "IMF raises global growth forecast to 3.5%"
  ]

  const UsPublishers: seq<string> := ["Bloomberg", "CNBC", "MarketWatch", "Seeking Alpha", "The Motley Fool"]
  const CnPublishers: seq<string> := ["财联社", "东方财富", "新浪财经", "证券时报", "第一财经"]
  const CryptoPublishers: seq<string> := ["CoinDesk", "Decrypt", "The Block", "CoinTelegraph", "Crypto Briefing"]
  const MacroPublishers: seq<string> := ["Reuters", "Financial Times", "WSJ", "The Economist", "Fed Reserve"]

  /** The title pool of a category; the wildcard pools all four, in the
      order the table lists them. */
  function TitlesFor(c: Category): (r: seq<string>)
    ensures |r| == if c == All then 40 else 10
  {
    match c
    case UsStocks => UsTitles
    case CnStocks => CnTitles
    case Crypto => CryptoTitles
    case Macro => MacroTitles
    case All => UsTitles + CnTitles + CryptoTitles + MacroTitles
  }

  /** The publisher pool of a category, pooled the same way. */
  function PublishersFor(c: Category): (r: seq<string>)
    ensures |r| == if c == All then 20 else 5
  {
    match c
    case UsStocks => UsPublishers
    case CnStocks => CnPublishers
    case Crypto => CryptoPublishers
    case Macro => MacroPublishers
    case All => UsPublishers + CnPublishers + CryptoPublishers + MacroPublishers
  }

  /** The four concrete categories a wildcard article is drawn from. */
  const Concrete: seq<Category> := [UsStocks, CnStocks, Crypto, Macro]

  const Sources: seq<Source> := [Tavily, AkShare, OpenBB]
  const Sentiments: seq<Sentiment> := [Positive, Negative, Neutral]

  /** The `Math.random()` draws one generated article consumes, in call
      order (the category draw is made for the wildcard only). */
  datatype NewsDraw = NewsDraw(category: Unit, source: Unit, publisher: Unit,
                               minutesAgo: Unit, summary: Unit, sentiment: Unit, readTime: Unit)

  /** One element of a non-empty pool, chosen by a draw. */
  function Choose<T>(pool: seq<T>, u: Unit): (x: T)
    requires |pool| > 0
    ensures x in pool
  {
    pool[Pick(u, |pool|)]
  }

  /** The category an article is filed under: the requested one, or one
      of the four concrete ones drawn for the wildcard. */
  function ArticleCategory(category: Category, u: Unit): (c: Category)
    ensures category != All ==> c == category
    ensures category == All ==> c in Concrete
    ensures c != All
  {
    if category == All then Choose(Concrete, u) else category
  }

  /** A publication time up to 179 whole minutes before `now`. */
  function Stamp(now: nat, u: Unit): (t: int)
    ensures now - 179 * 60000 <= t <= now
  {
    now - Pick(u, 180) * 60 * 1000
  }

  /** Article `i` of a batch generated for `category` at time `now`. */
  function MockArticle(category: Category, i: nat, d: NewsDraw, now: nat): (n: NewsItem)
    ensures category != All ==> n.category == category
    ensures category == All ==> n.category in Concrete
    ensures n.category != All
    ensures n.title == TitlesFor(category)[i % |TitlesFor(category)|]
    ensures n.publisher in PublishersFor(category)
    ensures n.readTime.Some? && 1 <= n.readTime.value <= 5
    ensures now - 179 * 60000 <= n.timestamp <= now
    ensures n.url == "https://example.com/news/" + NatText(i)
  {
    var actual := ArticleCategory(category, d.category);
    var titles := TitlesFor(category);
    var publisher := Choose(PublishersFor(category), d.publisher);
    NewsItem(
      CategoryId(actual) + "-" + NatText(i) + "-" + NatText(now),
      titles[i % |titles|],
      Choose(Sources, d.source),
      actual,
      "https://example.com/news/" + NatText(i),
      publisher,
      Stamp(now, d.minutesAgo),
      if d.summary as real > 0.7
      then Some("Full article available at " + publisher + ". Click to read more details about this developing story.")
      else None,
      Some(Choose(Sentiments, d.sentiment)),
      Some(Pick(d.readTime, 5) + 1))
  }

  /** `generateMockNews(category, count)`. */
  function GenerateMockNews(category: Category, count: nat, draw: nat -> NewsDraw, now: nat)
    : (r: seq<NewsItem>)
    ensures |r| == count
    ensures forall i :: 0 <= i < count ==> r[i] == MockArticle(category, i, draw(i), now)
  {
    seq(count, i requires 0 <= i < count => MockArticle(category, i, draw(i), now))
  }

  /** A generated batch cycles through the title pool in order and files
      every article under the requested category, or under one of the four
      concrete ones for the wildcard; read times are 1 to 5 minutes. */
  lemma GeneratedBatchShape(category: Category, count: nat, draw: nat -> NewsDraw, now: nat)
    ensures forall i :: 0 <= i < count ==>
      GenerateMockNews(category, count, draw, now)[i].title == TitlesFor(category)[i % |TitlesFor(category)|]
    ensures forall n :: n in GenerateMockNews(category, count, draw, now) ==>
      n.category != All && (category != All ==> n.category == category)
    ensures forall n :: n in GenerateMockNews(category, count, draw, now) ==>
      n.readTime.Some? && 1 <= n.readTime.value <= 5
  {
    var r := GenerateMockNews(category, count, draw, now);
    forall n | n in r
      ensures n.category != All && (category != All ==> n.category == category)
      ensures n.readTime.Some? && 1 <= n.readTime.value <= 5
    {
      var i :| 0 <= i < |r| && r[i] == n;
      assert n == MockArticle(category, i, draw(i), now);
    }
  }

  /** No two articles of a batch share a link. */
  lemma GeneratedLinksDistinct(category: Category, count: nat, draw: nat -> NewsDraw, now: nat)
    ensures var r := GenerateMockNews(category, count, draw, now);
      forall i, j :: 0 <= i < j < |r| ==> r[i].url != r[j].url
  {
    var r := GenerateMockNews(category, count, draw, now);
    forall i, j | 0 <= i < j < |r|
      ensures r[i].url != r[j].url
    {
      if r[i].url == r[j].url {
        PrefixCancel("https://example.com/news/", NatText(i), NatText(j));
        NatTextInjective(i, j);
      }
    }
  }

  /** `fetchNews`: a batch of fifty. */
  function FetchNews(category: Category, draw: nat -> NewsDraw, now: nat): (r: seq<NewsItem>)
    ensures |r| == 50
    ensures forall n :: n in r ==> category == All || n.category == category
  {
    GenerateMockNews(category, 50, draw, now)
  }

  /** The case-insensitive match `searchNews` applies. */
  predicate Matches(n: NewsItem, query: string) {
    Contains(Lower(n.title), Lower(query)) || Contains(Lower(n.publisher), Lower(query))
  }

  /** The articles of `batch` that match `query`, in batch order: each
      matching article as often as the batch holds it, nothing else. */
  function MatchesIn(batch: seq<NewsItem>, query: string): (r: seq<NewsItem>)
    ensures |r| <= |batch|
    ensures forall n :: n in r ==> Matches(n, query) && n in batch
    ensures forall n :: n in batch && Matches(n, query) ==> n in r
    ensures forall n :: n in batch ==> multiset(r)[n] == if Matches(n, query) then multiset(batch)[n] else 0
    ensures IsSubsequence(r, batch)
  {
    FilterCounts(batch, (n: NewsItem) => Matches(n, query));
    FilterIsSubsequence(batch, (n: NewsItem) => Matches(n, query));
    Filter(batch, (n: NewsItem) => Matches(n, query))
  }

  /** `searchNews`: the articles of a wildcard batch of a hundred whose
      lower-cased title or publisher includes the lower-cased query, in
      batch order. */
  function SearchNews(query: string, draw: nat -> NewsDraw, now: nat): (r: seq<NewsItem>)
    ensures |r| <= 100
    ensures forall n :: n in r ==> Matches(n, query)
    ensures forall n :: n in GenerateMockNews(All, 100, draw, now) && Matches(n, query) ==> n in r
    ensures forall n :: n in GenerateMockNews(All, 100, draw, now) ==>
      multiset(r)[n] == if Matches(n, query) then multiset(GenerateMockNews(All, 100, draw, now))[n] else 0
    ensures forall n :: n in r ==> n in GenerateMockNews(All, 100, draw, now)
    ensures IsSubsequence(r, GenerateMockNews(All, 100, draw, now))
  {
    MatchesIn(GenerateMockNews(All, 100, draw, now), query)
  }

  /** The search result is the only way to list the matching articles of
      the batch in batch order, each as often as the batch holds it. */
  lemma SearchNewsIsTheMatches(query: string, draw: nat -> NewsDraw, now: nat, r: seq<NewsItem>)
    requires IsSubsequence(r, GenerateMockNews(All, 100, draw, now))
    requires forall n :: n in GenerateMockNews(All, 100, draw, now) ==>
      multiset(r)[n] == if Matches(n, query) then multiset(GenerateMockNews(All, 100, draw, now))[n] else 0
    ensures r == SearchNews(query, draw, now)
  {
    FilterUnique(GenerateMockNews(All, 100, draw, now), (n: NewsItem) => Matches(n, query), r);
    assert SearchNews(query, draw, now) == Filter(GenerateMockNews(All, 100, draw, now), (n: NewsItem) => Matches(n, query));
  }

  /** The empty query keeps the whole batch. */
  lemma SearchEmptyKeepsAll(draw: nat -> NewsDraw, now: nat)
    ensures SearchNews("", draw, now) == GenerateMockNews(All, 100, draw, now)
  {
    var b := GenerateMockNews(All, 100, draw, now);
    forall n | n in b ensures Matches(n, "") {
      ContainsIff(Lower(n.title), "");
    }
    FilterKeepsAll(b, (n: NewsItem) => Matches(n, ""));
  }
}

=== FILE: real_api.dfy ===
/** The live news aggregator (src/services/realApi.ts): three provider
    adapters, the category gates in front of two of them, the merge of their
    results by recency, and the search entry point. */
module RealApi {
  import opened Wrappers
  import opened Types
  import opened Seqs
  import opened Text
  import opened StableSort
  import Js

  // ----------------------------------------------------------- configuration

  const TavilySearchUrl: string := "https://api.tavily.com/search"
  const DefaultAkShareUrl: string := "http://localhost:8000"
  const DefaultOpenBBUrl: string := "http://localhost:8001"

  /** Base URLs of the two self-hosted backends. */
  datatype Config = Config(akshareUrl: string, openbbUrl: string)

  /** Each URL is the environment override when it is non-empty, otherwise
      the local default. */
  function ResolveConfig(akshareEnv: Option<string>, openbbEnv: Option<string>): (c: Config)
    ensures akshareEnv.Some? && akshareEnv.value != "" ==> c.akshareUrl == akshareEnv.value
    ensures akshareEnv.None? || akshareEnv.value == "" ==> c.akshareUrl == DefaultAkShareUrl
    ensures openbbEnv.Some? && openbbEnv.value != "" ==> c.openbbUrl == openbbEnv.value
    ensures openbbEnv.None? || openbbEnv.value == "" ==> c.openbbUrl == DefaultOpenBBUrl
  {
    Config(Js.OrStr(akshareEnv, Some(DefaultAkShareUrl)).value,
           Js.OrStr(openbbEnv, Some(DefaultOpenBBUrl)).value)
  }

  // --------------------------------------------------------- raw payloads

  /** One hit of the Tavily search reply; `publishedDate` is the instant
      its `published_date` denotes, absent when the field is missing or
      empty. */
  datatype TavilyHit = TavilyHit(
    title: string,
    url: string,
    publishedDate: Option<int>,
    content: Option<string>)

  /** `results` is absent when the reply carries no such field. */
  datatype TavilyBody = TavilyBody(results: Option<seq<TavilyHit>>)

  /** One quote of the AkShare backend: each field may arrive under its
      English key or its Chinese key (名称, 代码, 原因, 最新价, 涨跌幅). */
  datatype AkQuote = AkQuote(
    name: Option<string>, nameZh: Option<string>,
    code: Option<string>, codeZh: Option<string>,
    reason: Option<string>, reasonZh: Option<string>,
    price: Option<real>, priceZh: Option<real>,
    changePercent: Option<real>, changePercentZh: Option<real>)

  /** One article of the OpenBB backend. */
  datatype OpenBBArticle = OpenBBArticle(
    title: string,
    url: string,
    source: Option<string>,
    date: Option<int>,
    text: Option<string>)

  /** The envelope both backends reply with; `data` is absent when it is
      not an array. */
  datatype Envelope<T> = Envelope(status: string, data: Option<seq<T>>)

  /** The replies the three providers would give to this request. */
  datatype NewsReplies = NewsReplies(
    tavily: Response<TavilyBody>,
    akshare: Response<Envelope<AkQuote>>,
    openbb: Response<Envelope<OpenBBArticle>>)

  // ------------------------------------------------------------ item fields

  /** `text?.substring(0, 200)`. */
  function Summary(text: Option<string>): (r: Option<string>)
    ensures r.Some? <==> text.Some?
    ensures r.Some? ==> |r.value| <= 200 && |r.value| <= |text.value| && r.value == text.value[..|r.value|]
    ensures r.Some? && |text.value| <= 200 ==> r.value == text.value
    ensures r.Some? && |text.value| > 200 ==> |r.value| == 200
  {
    match text
    case Some(t) => Some(Take(t, 200))
    case None => None
  }

  /** `Math.ceil(text?.length / 1000) || 2`: whole thousands of characters,
      rounded up; 2 when the text is absent (NaN) or empty (0). */
  function ReadMinutes(text: Option<string>): (m: int)
    ensures m >= 1
    ensures text.None? || |text.value| == 0 ==> m == 2
    ensures text.Some? && |text.value| > 0 ==> (m - 1) * 1000 < |text.value| <= m * 1000
  {
    if text.None? || |text.value| == 0 then 2 else (|text.value| + 999) / 1000
  }

  /** `hostname.replace('www.', '')`. */
  function Publisher(host: string): string {
    ReplaceFirst(host, "www.", "")
  }

  /** A host name beginning with `www.` loses exactly that prefix; one
      without `www.` anywhere is kept as it is. */
  lemma PublisherDropsWww(host: string)
    ensures |host| >= 4 && host[..4] == "www." ==> Publisher(host) == host[4..]
    ensures !Contains(host, "www.") ==> Publisher(host) == host
  {
  }

  /** `${prefix}-${index}-${now}`, the id scheme of every adapter. */
  function ItemId(prefix: string, index: nat, now: nat): string {
    prefix + "-" + NatText(index) + "-" + NatText(now)
  }

  /** Ids built from one prefix and clock reading differ by index. */
  lemma ItemIdInjective(prefix: string, i: nat, j: nat, now: nat)
    requires ItemId(prefix, i, now) == ItemId(prefix, j, now)
    ensures i == j
  {
    var tail := "-" + NatText(now);
    assert ItemId(prefix, i, now) == (prefix + "-") + NatText(i) + tail;
    assert ItemId(prefix, j, now) == (prefix + "-") + NatText(j) + tail;
    SuffixCancel((prefix + "-") + NatText(i), (prefix + "-") + NatText(j), tail);
    PrefixCancel(prefix + "-", NatText(i), NatText(j));
    NatTextInjective(i, j);
  }

  // ----------------------------------------------------------------- Tavily

  function TavilyItem(hit: TavilyHit, host: string, index: nat, category: Category, rt: Runtime): NewsItem {
    NewsItem(
      ItemId("tavily-" + CategoryId(category), index, rt.now),
      hit.title, Tavily, category, hit.url, Publisher(host),
      hit.publishedDate.GetOr(rt.now),
      Summary(hit.content), None, Some(ReadMinutes(hit.content)))
  }

  /** Maps every hit; one URL the `URL` constructor rejects throws out of
      the whole mapping, which the adapter's catch turns into `[]`. */
  function TavilyItems(hits: seq<TavilyHit>, category: Category, rt: Runtime): (r: seq<NewsItem>)
    ensures (exists i :: 0 <= i < |hits| && rt.hostname(hits[i].url).None?) ==> r == []
    ensures (forall i :: 0 <= i < |hits| ==> rt.hostname(hits[i].url).Some?) ==> |r| == |hits|
    ensures forall i :: 0 <= i < |r| ==>
      && rt.hostname(hits[i].url).Some?
      && r[i] == TavilyItem(hits[i], rt.hostname(hits[i].url).value, i, category, rt)
  {
    if forall i :: 0 <= i < |hits| ==> rt.hostname(hits[i].url).Some? then
      seq(|hits|, i requires 0 <= i < |hits| =>
        TavilyItem(hits[i], rt.hostname(hits[i].url).value, i, category, rt))
    else []
  }

  /** The Tavily adapter: one search POST for `query`, every failure
      yields `[]`. */
  function TavilyNews(query: string, category: Category, reply: Response<TavilyBody>, rt: Runtime)
    : (r: Fetched<seq<NewsItem>>)
    ensures r.requests == [Post(TavilySearchUrl, query + " finance news")]
    ensures forall n :: n in r.value ==> n.source == Tavily && n.category == category
    ensures forall n :: n in r.value ==> n.summary.None? || |n.summary.value| <= 200
    ensures forall n :: n in r.value ==> n.readTime.Some? && n.readTime.value >= 1
    ensures !(reply.Reply? && IsOkStatus(reply.status) && reply.payload.Parsed?) ==> r.value == []
    ensures reply.Reply? && reply.payload.Parsed? && reply.payload.body.results.None? ==> r.value == []
    ensures reply.Reply? && IsOkStatus(reply.status) && reply.payload.Parsed? ==>
      r.value == TavilyItems(reply.payload.body.results.GetOr([]), category, rt)
  {
    var items :=
      match reply
      case Failed(_) => []
      case Reply(status, payload) =>
        if !IsOkStatus(status) then []
        else match payload
          case Unparsable(_) => []
          case Parsed(body) => TavilyItems(body.results.GetOr([]), category, rt);
    Fetched([Post(TavilySearchUrl, query + " finance news")], items)
  }

  /** Each Tavily item is its hit, normalised: the requested category, the
      host name without `www.` as publisher, the publication date or the
      current time, a summary of at most 200 characters and a read time of
      ceil(length / 1000) minutes, 2 for an empty or missing text; the ids
      of one reply are pairwise distinct. */
  lemma TavilyItemFields(query: string, category: Category, hits: seq<TavilyHit>, rt: Runtime, status: int)
    requires IsOkStatus(status)
    requires forall i :: 0 <= i < |hits| ==> rt.hostname(hits[i].url).Some?
    ensures var r := TavilyNews(query, category, Reply(status, Parsed(TavilyBody(Some(hits)))), rt).value;
      && |r| == |hits|
      && (forall i :: 0 <= i < |r| ==>
            && r[i].publisher == ReplaceFirst(rt.hostname(hits[i].url).value, "www.", "")
            && r[i].timestamp == hits[i].publishedDate.GetOr(rt.now)
            && r[i].summary == Summary(hits[i].content)
            && r[i].readTime == Some(ReadMinutes(hits[i].content)))
      && (forall i, j :: 0 <= i < j < |r| ==> r[i].id != r[j].id)
  {
    var r := TavilyNews(query, category, Reply(status, Parsed(TavilyBody(Some(hits)))), rt).value;
    forall i, j | 0 <= i < j < |r|
      ensures r[i].id != r[j].id
    {
      if r[i].id == r[j].id {
        ItemIdInjective("tavily-" + CategoryId(category), i, j, rt.now);
      }
    }
  }

  // ---------------------------------------------------------------- AkShare

  /** The AkShare backend serves mainland-market news only. */
  predicate AkShareEligible(category: Category) {
    category == CnStocks || category == All
  }

  function AkShareItem(q: AkQuote, index: nat, rt: Runtime): NewsItem {
    var code := Js.StrText(Js.OrStr(q.code, q.codeZh));
    var reason := Js.OrStr(Js.OrStr(q.reason, q.reasonZh), Some("热门股票")).value;
    var pct := Js.OrNum(q.changePercent, q.changePercentZh);
    NewsItem(
      ItemId("akshare-cn-stocks", index, rt.now),
      Js.StrText(Js.OrStr(q.name, q.nameZh)) + " (" + code + ") - " + reason,
      AkShare, CnStocks,
      "https://finance.sina.com.cn/realstock/company/" + code + "/nc.shtml",
      "东方财富", rt.now,
      Some("最新价: " + Js.NumText(Js.OrNum(q.price, q.priceZh), rt.numberText)
           + " | 涨跌幅: " + Js.NumText(pct, rt.numberText) + "%"),
      Some(if Js.OrNum(pct, Some(0.0)).value > 0.0 then Positive else Negative),
      Some(1))
  }

  /** `data.status === 'success' && Array.isArray(data.data)`. */
  predicate IsSuccess<T>(e: Envelope<T>) {
    e.status == "success" && e.data.Some?
  }

  /** The envelope's items when the reply is a successful one. */
  function Accepted<T>(reply: Response<Envelope<T>>): Option<seq<T>> {
    if reply.Reply? && IsOkStatus(reply.status) && reply.payload.Parsed? && IsSuccess(reply.payload.body)
    then reply.payload.body.data
    else None
  }

  /** The AkShare adapter: skipped without a request outside its domain;
      otherwise one GET, at most ten quotes turned into items, and `[]` on
      every failure. */
  function AkShareNews(category: Category, reply: Response<Envelope<AkQuote>>, cfg: Config, rt: Runtime)
    : (r: Fetched<seq<NewsItem>>)
    ensures !AkShareEligible(category) ==> r.requests == [] && r.value == []
    ensures AkShareEligible(category) ==> r.requests == [Get(cfg.akshareUrl + "/stock/realtime/hot")]
    ensures Accepted(reply).None? ==> r.value == []
    ensures AkShareEligible(category) && Accepted(reply).Some? ==>
      |r.value| == if |Accepted(reply).value| < 10 then |Accepted(reply).value| else 10
    ensures AkShareEligible(category) && Accepted(reply).Some? ==>
      forall i :: 0 <= i < |r.value| ==> r.value[i] == AkShareItem(Accepted(reply).value[i], i, rt)
    ensures forall n :: n in r.value ==>
      n.source == AkShare && n.category == CnStocks && n.publisher == "东方财富"
      && n.readTime == Some(1) && n.timestamp == rt.now
  {
    if !AkShareEligible(category) then Fetched([], [])
    else
      var items :=
        match Accepted(reply)
        case None => []
        case Some(quotes) =>
          var top := Take(quotes, 10);
          seq(|top|, i requires 0 <= i < |top| => AkShareItem(top[i], i, rt));
      Fetched([Get(cfg.akshareUrl + "/stock/realtime/hot")], items)
  }

  /** The sentiment of a quote is positive exactly when its change percent
      (English key first, then the Chinese one, else 0) is above zero. */
  lemma AkShareSentiment(q: AkQuote, index: nat, rt: Runtime)
    ensures var pct := Js.OrNum(q.changePercent, q.changePercentZh);
      (AkShareItem(q, index, rt).sentiment == Some(Positive) <==> pct.Some? && pct.value > 0.0)
    ensures AkShareItem(q, index, rt).sentiment != Some(Neutral)
  {
  }

  // ----------------------------------------------------------------- OpenBB

  /** The OpenBB backend serves US-market news only. */
  predicate OpenBBEligible(category: Category) {
    category == UsStocks || category == All
  }

  function OpenBBItem(a: OpenBBArticle, index: nat, rt: Runtime): NewsItem {
    NewsItem(
      ItemId("openbb-us-stocks", index, rt.now),
      a.title, OpenBB, UsStocks, a.url,
      Js.OrStr(a.source, Some("Bloomberg")).value,
      a.date.GetOr(rt.now),
      Summary(a.text), None, Some(ReadMinutes(a.text)))
  }

  /** The OpenBB adapter: skipped without a request outside its domain;
      otherwise one GET, every article turned into an item, and `[]` on
      every failure. */
  function OpenBBNews(category: Category, reply: Response<Envelope<OpenBBArticle>>, cfg: Config, rt: Runtime)
    : (r: Fetched<seq<NewsItem>>)
    ensures !OpenBBEligible(category) ==> r.requests == [] && r.value == []
    ensures OpenBBEligible(category) ==> r.requests == [Get(cfg.openbbUrl + "/news/market")]
    ensures Accepted(reply).None? ==> r.value == []
    ensures OpenBBEligible(category) && Accepted(reply).Some? ==> |r.value| == |Accepted(reply).value|
    ensures OpenBBEligible(category) && Accepted(reply).Some? ==>
      forall i :: 0 <= i < |r.value| ==> r.value[i] == OpenBBItem(Accepted(reply).value[i], i, rt)
    ensures forall n :: n in r.value ==>
      n.source == OpenBB && n.category == UsStocks && n.publisher != ""
      && (n.summary.None? || |n.summary.value| <= 200)
  {
    if !OpenBBEligible(category) then Fetched([], [])
    else
      var items :=
        match Accepted(reply)
        case None => []
        case Some(articles) =>
          seq(|articles|, i requires 0 <= i < |articles| => OpenBBItem(articles[i], i, rt));
      Fetched([Get(cfg.openbbUrl + "/news/market")], items)
  }

  // ------------------------------------------------------------- aggregation

  /** The search phrase `fetchNews` sends to Tavily for each category. */
  function QueryFor(category: Category): string {
    match category
    case All => "financial markets"
    case UsStocks => "US stock market"
    case CnStocks => "China A-share market"
    case Crypto => "cryptocurrency Bitcoin Ethereum"
    case Macro => "global economy GDP inflation"
  }

  /** Recency, the sort key of the feed. */
  function Recency(n: NewsItem): real {
    n.timestamp as real
  }

  /** `fetchNews`: the three adapters run side by side (the order of the
      request list is not significant), their items are concatenated and
      sorted newest first. */
  function FetchNews(category: Category, replies: NewsReplies, cfg: Config, rt: Runtime)
    : (r: Fetched<seq<NewsItem>>)
  {
    var t := TavilyNews(QueryFor(category), category, replies.tavily, rt);
    var a := AkShareNews(category, replies.akshare, cfg, rt);
    var o := OpenBBNews(category, replies.openbb, cfg, rt);
    Fetched(t.requests + a.requests + o.requests, SortDesc(t.value + a.value + o.value, Recency))
  }

  /** The feed is exactly the three contributions, newest first, with items
      of equal timestamp in concatenation order (Tavily, then AkShare, then
      OpenBB, each in reply order); it is the one such arrangement. */
  lemma FetchNewsIsMergedAndSorted(category: Category, replies: NewsReplies, cfg: Config, rt: Runtime)
    ensures var t := TavilyNews(QueryFor(category), category, replies.tavily, rt).value;
      var a := AkShareNews(category, replies.akshare, cfg, rt).value;
      var o := OpenBBNews(category, replies.openbb, cfg, rt).value;
      var r := FetchNews(category, replies, cfg, rt).value;
      && multiset(r) == multiset(t + a + o)
      && (forall i, j :: 0 <= i < j < |r| ==> r[i].timestamp >= r[j].timestamp)
      && StableOf(r, t + a + o, Recency)
      && (forall s :: SortedDesc(s, Recency) && StableOf(s, t + a + o, Recency) ==> s == r)
  {
    var t := TavilyNews(QueryFor(category), category, replies.tavily, rt).value;
    var a := AkShareNews(category, replies.akshare, cfg, rt).value;
    var o := OpenBBNews(category, replies.openbb, cfg, rt).value;
    var r := FetchNews(category, replies, cfg, rt).value;
    forall s | SortedDesc(s, Recency) && StableOf(s, t + a + o, Recency)
      ensures s == r
    {
      SortDescIsTheStableSort(t + a + o, s, Recency);
    }
  }

  /** Which providers a category reaches: Tavily always, AkShare only for
      mainland shares and OpenBB only for US shares, both for the wildcard. */
  lemma FetchNewsRouting(category: Category, replies: NewsReplies, cfg: Config, rt: Runtime)
    ensures var r := FetchNews(category, replies, cfg, rt);
      && Post(TavilySearchUrl, QueryFor(category) + " finance news") in r.requests
      && (Get(cfg.akshareUrl + "/stock/realtime/hot") in r.requests <==> AkShareEligible(category))
      && (Get(cfg.openbbUrl + "/news/market") in r.requests <==> OpenBBEligible(category))
      && |r.requests| <= 3
  {
    var ak := Get(cfg.akshareUrl + "/stock/realtime/hot");
    var ob := Get(cfg.openbbUrl + "/news/market");
    assert ak != ob by {
      assert ak.url[|ak.url| - 2] == 'o';
      assert ob.url[|ob.url| - 2] == 'e';
    }
  }

  /** For a category only Tavily covers (crypto, macro) the feed holds only
      Tavily items of that category, whatever the backends would reply. */
  lemma TavilyOnlyCategories(category: Category, replies: NewsReplies, cfg: Config, rt: Runtime)
    requires category == Crypto || category == Macro
    ensures FetchNews(category, replies, cfg, rt).requests == [Post(TavilySearchUrl, QueryFor(category) + " finance news")]
    ensures forall n :: n in FetchNews(category, replies, cfg, rt).value ==> n.source == Tavily && n.category == category
  {
    var t := TavilyNews(QueryFor(category), category, replies.tavily, rt);
    var a := AkShareNews(category, replies.akshare, cfg, rt);
    var o := OpenBBNews(category, replies.openbb, cfg, rt);
    assert a.requests + o.requests == [];
    TavilyOnlyItems(t.value, a.value, o.value, category);
  }

  /** Sorting Tavily items of one category together with nothing else
      yields only those items. */
  lemma TavilyOnlyItems(t: seq<NewsItem>, a: seq<NewsItem>, o: seq<NewsItem>, category: Category)
    requires a == [] && o == []
    requires forall n :: n in t ==> n.source == Tavily && n.category == category
    ensures forall n :: n in SortDesc(t + a + o, Recency) ==> n.source == Tavily && n.category == category
  {
    assert t + a + o == t;
    forall n | n in SortDesc(t, Recency)
      ensures n.source == Tavily && n.category == category
    {
      SortDescMembers(t, Recency, n);
    }
  }

  /** `searchNews`: a blank query is the full wildcard feed; any other query
      goes to Tavily alone, under the wildcard category. */
  function SearchNews(query: string, replies: NewsReplies, cfg: Config, rt: Runtime)
    : (r: Fetched<seq<NewsItem>>)
    ensures IsBlank(query) ==> r == FetchNews(All, replies, cfg, rt)
    ensures !IsBlank(query) ==>
      && r.requests == [Post(TavilySearchUrl, query + " finance news")]
      && forall n :: n in r.value ==> n.source == Tavily && n.category == All
  {
    TrimEmptyIffBlank(query);
    if Trim(query) == [] then FetchNews(All, replies, cfg, rt)
    else TavilyNews(query, All, replies.tavily, rt)
  }
}

=== FILE: real_stock_api.dfy ===
/** The Eastmoney quote-list adapter (src/services/realStockApi.ts): hot
    shares and hot boards, normalised from the list endpoint's numbered
    `fNN` fields. Unlike the news adapters it lets every failure escape, so
    that the fallback chain of src/services/stockApi.ts can move on. */
module RealStockApi {
  import opened Wrappers
  import opened Types
  import opened Seqs
  import Js

  const StocksUrl: string :=
    "https://push2.eastmoney.com/api/qt/clist/get?"
    + "pn=1&pz=20&po=1&np=1&fltt=2&invt=2&"
    + "fid=f3&fs=m:0+t:6,m:0+t:80,m:1+t:2,m:1+t:23&"
    + "fields=f12,f14,f2,f3,f4,f5,f6,f7,f8,f15,f16,f17,f18,f20,f21"

  const SectorsUrl: string :=
    "https://push2.eastmoney.com/api/qt/clist/get?"
    + "pn=1&pz=20&po=1&np=1&fltt=2&invt=2&"
    + "fid=f3&fs=m:90+t:3&"
    + "fields=f12,f14,f2,f3,f4,f5,f6,f104,f105,f106"

  const StatusError: string := "Failed to fetch from Eastmoney API"
  const FormatError: string := "Invalid data format"

  /** One share row: f12 code, f14 name, f2 last price, f3 change %,
      f4 change, f5 volume, f6 turnover amount, f7 amplitude %, f8 turnover
      rate %, f15 high, f16 low, f17 open, f18 previous close. The price
      fields are in fen (hundredths of a yuan). */
  datatype StockRow = StockRow(
    f12: string, f14: string,
    f2: real, f3: real, f4: real, f5: real, f6: real, f7: real,
    f8: Option<real>,
    f15: real, f16: real, f17: real, f18: real)

  /** One board row: f12 code, f14 name, f3 change %, f6 amount, f62 main
      net inflow, f104 rising and f105 falling member counts, f128 leading
      share. */
  datatype SectorRow = SectorRow(
    f12: string, f14: string, f3: real,
    f6: Option<real>, f62: Option<real>,
    f104: Option<int>, f105: Option<int>,
    f128: Option<string>)

  /** The decoded reply; `diff` is absent when `data?.data?.diff` is falsy. */
  datatype ClistBody<R> = ClistBody(diff: Option<seq<R>>)

  /** How many rows the adapters keep. */
  const Limit: nat := 10

  // ------------------------------------------------------------ normalising

  /** Fen become yuan: each price field times 100 is the raw field;
      percentages, volume and amount are taken as they are; a missing
      turnover rate reads 0. */
  function StockOf(row: StockRow): (s: HotStock)
    ensures s.price * 100.0 == row.f2 && s.change * 100.0 == row.f4
    ensures s.high * 100.0 == row.f15 && s.low * 100.0 == row.f16
    ensures s.open * 100.0 == row.f17 && s.previousClose * 100.0 == row.f18
    ensures s.changePercent == row.f3 && s.volume == row.f5
    ensures s.amount == row.f6 && s.amplitude == row.f7
    ensures s.turnover == (if row.f8.Some? then row.f8.value else 0.0)
    ensures s.code == row.f12 && s.name == row.f14
  {
    HotStock(
      row.f12, row.f14,
      row.f2 / 100.0, row.f4 / 100.0, row.f3,
      row.f5, row.f6, row.f8.GetOr(0.0), row.f7,
      row.f15 / 100.0, row.f16 / 100.0, row.f17 / 100.0, row.f18 / 100.0)
  }

  /** Board counts: the rising and falling counts default to 0, the member
      count is their sum, or 100 when that sum is 0 (so it is never 0); the
      leading share is never empty, `-` standing in for a missing name;
      amount and net inflow default to 0. */
  function SectorOf(row: SectorRow): (s: HotSector)
    ensures s.upCount == (if row.f104.Some? then row.f104.value else 0)
    ensures s.downCount == (if row.f105.Some? then row.f105.value else 0)
    ensures s.stockCount == s.upCount + s.downCount || (s.upCount + s.downCount == 0 && s.stockCount == 100)
    ensures s.stockCount != 0
    ensures s.leadingStock != ""
    ensures row.f128.Some? && row.f128.value != "" ==> s.leadingStock == row.f128.value
    ensures row.f128.None? || row.f128 == Some("") ==> s.leadingStock == "-"
    ensures s.amount == (if row.f6.Some? then row.f6.value else 0.0)
    ensures s.netInflow == (if row.f62.Some? then row.f62.value else 0.0)
    ensures s.code == row.f12 && s.name == row.f14 && s.changePercent == row.f3
  {
    var up := row.f104.GetOr(0);
    var down := row.f105.GetOr(0);
    HotSector(
      row.f14, row.f12, row.f3,
      Js.OrStr(row.f128, Some("-")).value,
      if up + down == 0 then 100 else up + down,
      up, down,
      row.f6.GetOr(0.0), row.f62.GetOr(0.0))
  }

  // ----------------------------------------------------------------- replies

  /** The failure a reply raises, if any: a non-2xx status and a missing
      `diff` carry the adapter's own messages, network and JSON errors their
      own; an empty `diff` is a success with no rows. */
  function ReplyError<R>(reply: Response<ClistBody<R>>): (e: Option<string>)
    ensures reply.Failed? ==> e == Some(reply.message)
    ensures reply.Reply? && !IsOkStatus(reply.status) ==> e == Some(StatusError)
    ensures reply.Reply? && IsOkStatus(reply.status) && reply.payload.Unparsable?
      ==> e == Some(reply.payload.message)
    ensures reply.Reply? && IsOkStatus(reply.status) && reply.payload.Parsed?
      ==> (e.Some? <==> reply.payload.body.diff.None?) && (e.Some? ==> e.value == FormatError)
  {
    match reply
    case Failed(msg) => Some(msg)
    case Reply(status, payload) =>
      if !IsOkStatus(status) then Some(StatusError)
      else match payload
        case Unparsable(msg) => Some(msg)
        case Parsed(body) => if body.diff.None? then Some(FormatError) else None
  }

  /** `fetchRealHotStocks`: the first ten rows, in the order Eastmoney sent
      them, each normalised; any failure is raised to the caller. */
  function FetchRealHotStocks(reply: Response<ClistBody<StockRow>>): (r: Result<seq<HotStock>>)
    ensures r.Err? <==> ReplyError(reply).Some?
    ensures r.Err? ==> r.message == ReplyError(reply).value
    ensures r.Ok? ==> var rows := reply.payload.body.diff.value;
      && |r.value| == (if |rows| < Limit then |rows| else Limit)
      && forall i :: 0 <= i < |r.value| ==> r.value[i] == StockOf(rows[i])
  {
    match ReplyError(reply)
    case Some(msg) => Err(msg)
    case None =>
      var rows := Take(reply.payload.body.diff.value, Limit);
      Ok(seq(|rows|, i requires 0 <= i < |rows| => StockOf(rows[i])))
  }

  /** `fetchRealHotSectors`: the first ten boards, in order, normalised; any
      failure is raised to the caller. */
  function FetchRealHotSectors(reply: Response<ClistBody<SectorRow>>): (r: Result<seq<HotSector>>)
    ensures r.Err? <==> ReplyError(reply).Some?
    ensures r.Err? ==> r.message == ReplyError(reply).value
    ensures r.Ok? ==> var rows := reply.payload.body.diff.value;
      && |r.value| == (if |rows| < Limit then |rows| else Limit)
      && forall i :: 0 <= i < |r.value| ==> r.value[i] == SectorOf(rows[i])
  {
    match ReplyError(reply)
    case Some(msg) => Err(msg)
    case None =>
      var rows := Take(reply.payload.body.diff.value, Limit);
      Ok(seq(|rows|, i requires 0 <= i < |rows| => SectorOf(rows[i])))
  }
}

=== FILE: seqs.dfy ===
/** Order-preserving filtering and counting over sequences, the model of
    `Array.prototype.filter` and `.filter(...).length`. */
module Seqs {

  /** The elements of `s` that satisfy `p`, in their original order. */
  function Filter<T>(s: seq<T>, p: T -> bool): (r: seq<T>)
    ensures |r| <= |s|
    ensures forall i :: 0 <= i < |r| ==> r[i] in s && p(r[i])
    ensures forall i :: 0 <= i < |s| && p(s[i]) ==> s[i] in r
  {
    if s == [] then []
    else if p(s[0]) then [s[0]] + Filter(s[1..], p)
    else Filter(s[1..], p)
  }

  /** Filtering keeps every passing element as many times as it occurs and
      drops every failing one: the result holds no duplicates the input
      did not. */
  lemma {:induction false} FilterCounts<T>(s: seq<T>, p: T -> bool)
    ensures forall x :: x in s ==> multiset(Filter(s, p))[x] == if p(x) then multiset(s)[x] else 0
  {
    if s != [] {
      FilterCounts(s[1..], p);
      assert s == [s[0]] + s[1..];
      assert multiset(s) == multiset{s[0]} + multiset(s[1..]);
    }
  }

  /** A single element survives exactly when it passes; with `FilterConcat`
      this pins the filter down element by element, order included. */
  lemma FilterSingle<T>(x: T, p: T -> bool)
    ensures Filter([x], p) == if p(x) then [x] else []
  {
  }

  /** Filtering distributes over concatenation: what survives from `a ++ b`
      is what survives from `a` followed by what survives from `b`. */
  lemma {:induction false} FilterConcat<T>(a: seq<T>, b: seq<T>, p: T -> bool)
    ensures Filter(a + b, p) == Filter(a, p) + Filter(b, p)
  {
    if a == [] {
      assert a + b == b;
    } else {
      assert (a + b)[1..] == a[1..] + b;
      FilterConcat(a[1..], b, p);
    }
  }

  /** A filter every element passes keeps the sequence whole. */
  lemma {:induction false} FilterKeepsAll<T>(s: seq<T>, p: T -> bool)
    requires forall i :: 0 <= i < |s| ==> p(s[i])
    ensures Filter(s, p) == s
  {
    if s != [] {
      FilterKeepsAll(s[1..], p);
    }
  }

  /** `r` is `s` with some elements left out, the rest in their order. */
  ghost predicate IsSubsequence<T>(r: seq<T>, s: seq<T>)
    decreases |s|
  {
    r == [] || (s != [] && ((r[0] == s[0] && IsSubsequence(r[1..], s[1..])) || IsSubsequence(r, s[1..])))
  }

  /** A subsequence holds no element more often than the sequence does. */
  lemma {:induction false} SubsequenceIncluded<T>(r: seq<T>, s: seq<T>)
    requires IsSubsequence(r, s)
    ensures multiset(r) <= multiset(s)
    decreases |s|
  {
    if r != [] {
      assert s == [s[0]] + s[1..];
      if r[0] == s[0] && IsSubsequence(r[1..], s[1..]) {
        SubsequenceIncluded(r[1..], s[1..]);
        assert r == [r[0]] + r[1..];
      } else {
        SubsequenceIncluded(r, s[1..]);
      }
    }
  }

  /** What a filter keeps is a subsequence of its input. */
  lemma {:induction false} FilterIsSubsequence<T>(s: seq<T>, p: T -> bool)
    ensures IsSubsequence(Filter(s, p), s)
  {
    if s != [] {
      FilterIsSubsequence(s[1..], p);
      if p(s[0]) {
        assert ([s[0]] + Filter(s[1..], p))[1..] == Filter(s[1..], p);
      }
    }
  }

  /** The filter is the only subsequence that keeps each passing element
      as often as the input holds it and drops each failing one. */
  lemma {:induction false} FilterUnique<T>(s: seq<T>, p: T -> bool, r: seq<T>)
    requires IsSubsequence(r, s)
    requires forall x :: x in s ==> multiset(r)[x] == if p(x) then multiset(s)[x] else 0
    ensures r == Filter(s, p)
  {
    if s == [] {
    } else {
      var x, t := s[0], s[1..];
      assert s == [x] + t;
      if r != [] && r[0] == x && IsSubsequence(r[1..], t) {
        assert r == [x] + r[1..];
        assert p(x) by {
          assert multiset(r)[x] > 0;
        }
        forall y | y in t
          ensures multiset(r[1..])[y] == if p(y) then multiset(t)[y] else 0
        {
          assert multiset(r)[y] == multiset(r[1..])[y] + (if y == x then 1 else 0);
        }
        FilterUnique(t, p, r[1..]);
      } else {
        assert IsSubsequence(r, t);
        SubsequenceIncluded(r, t);
        assert !p(x);
        forall y | y in t
          ensures multiset(r)[y] == if p(y) then multiset(t)[y] else 0
        {
          if p(y) {
            assert y != x;
          }
        }
        FilterUnique(t, p, r);
      }
    }
  }

  /** How many elements of `s` satisfy `p`. */
  function Count<T>(s: seq<T>, p: T -> bool): (n: nat)
    ensures n <= |s|
  {
    |Filter(s, p)|
  }

  /** Counting splits on the first element. */
  lemma CountCons<T>(s: seq<T>, p: T -> bool)
    requires s != []
    ensures Count(s, p) == (if p(s[0]) then 1 else 0) + Count(s[1..], p)
  {
  }

  /** The positions of `s` holding an element that satisfies `p`. */
  ghost function Positions<T>(s: seq<T>, p: T -> bool): set<int> {
    set i | 0 <= i < |s| && p(s[i])
  }

  /** The count is the number of positions holding a passing element. */
  lemma {:induction false} CountIsIndexCount<T>(s: seq<T>, p: T -> bool)
    ensures Count(s, p) == |Positions(s, p)|
  {
    if s != [] {
      var t, x := s[..|s| - 1], s[|s| - 1];
      CountIsIndexCount(t, p);
      assert s == t + [x];
      FilterConcat(t, [x], p);
      FilterSingle(x, p);
      var before, after := Positions(t, p), Positions(s, p);
      if p(x) {
        assert after == before + {|t|};
      } else {
        assert after == before;
      }
    }
  }

  /** The first `n` elements, or all of them when there are fewer:
      `Array.prototype.slice(0, n)`. */
  function Take<T>(s: seq<T>, n: nat): (r: seq<T>)
    ensures |r| == if |s| < n then |s| else n
    ensures forall i :: 0 <= i < |r| ==> r[i] == s[i]
  {
    if |s| <= n then s else s[..n]
  }

  /** No two elements of `s` agree on `f`. */
  ghost predicate DistinctBy<T, U>(s: seq<T>, f: T -> U) {
    forall i, j :: 0 <= i < j < |s| ==> f(s[i]) != f(s[j])
  }

  lemma {:induction false} AtMostOnce<T, U>(q: seq<T>, f: T -> U, x: T)
    requires DistinctBy(q, f)
    ensures multiset(q)[x] <= 1
  {
    if q != [] {
      var init := q[..|q| - 1];
      assert q == init + [q[|q| - 1]];
      AtMostOnce(init, f, x);
      if q[|q| - 1] == x {
        assert x !in init by {
          forall k | 0 <= k < |init| ensures init[k] != x {
            assert f(q[k]) != f(q[|q| - 1]);
          }
        }
      }
    }
  }

  lemma TwiceIfRepeated<T>(r: seq<T>, i: nat, j: nat)
    requires i < j < |r| && r[i] == r[j]
    ensures multiset(r)[r[i]] >= 2
  {
    assert r == r[..j] + r[j..];
    assert r[i] in r[..j];
    assert r[j] in r[j..];
  }

  /** Rearranging a sequence keeps it free of `f`-duplicates. */
  lemma DistinctByPermutation<T, U>(q: seq<T>, r: seq<T>, f: T -> U)
    requires multiset(q) == multiset(r)
    requires DistinctBy(q, f)
    ensures DistinctBy(r, f)
  {
    forall i, j | 0 <= i < j < |r|
      ensures f(r[i]) != f(r[j])
    {
      if f(r[i]) == f(r[j]) {
        assert r[i] in multiset(q) && r[j] in multiset(q);
        var a :| 0 <= a < |q| && q[a] == r[i];
        var b :| 0 <= b < |q| && q[b] == r[j];
        assert a == b;
        TwiceIfRepeated(r, i, j);
        AtMostOnce(q, f, r[i]);
      }
    }
  }

  /** A prefix of a duplicate-free sequence is duplicate-free. */
  lemma DistinctByTake<T, U>(s: seq<T>, n: nat, f: T -> U)
    requires DistinctBy(s, f)
    ensures DistinctBy(Take(s, n), f)
  {
  }
}

=== FILE: service_index.dfy ===
/** The news service entry point (src/services/index.ts): a mode chosen once
    from the environment picks the live aggregator or the synthetic
    service, and every call is handed to the chosen one unchanged. */
module ServiceIndex {
  import opened Wrappers
  import opened Types
  import opened Text
  import Js
  import RealApi
  import MockApi
  import StockApi

  /** The environment variables the services read, absent when unset. */
  datatype Env = Env(
    useRealApi: Option<string>,
    tavilyKey: Option<string>,
    akshareUrl: Option<string>,
    openbbUrl: Option<string>)

  /** The news services go live only when the flag is exactly `'true'`. */
  predicate UseRealApi(env: Env) {
    env.useRealApi == Some("true")
  }

  /** The news entry point and the market-snapshot service read the same
      flag with opposite defaults: both are live for `'true'`, both
      synthetic for `'false'`, and for any other value, unset included,
      news is synthetic while snapshots are live. */
  lemma ModeDefaultsDiffer(env: Env)
    ensures UseRealApi(env) ==> StockApi.LiveMode(env.useRealApi)
    ensures env.useRealApi == Some("false") ==> !UseRealApi(env) && !StockApi.LiveMode(env.useRealApi)
    ensures env.useRealApi != Some("true") && env.useRealApi != Some("false") ==>
      !UseRealApi(env) && StockApi.LiveMode(env.useRealApi)
  {
  }

  /** What the live aggregator would be told by the environment. */
  function LiveConfig(env: Env): RealApi.Config {
    RealApi.ResolveConfig(env.akshareUrl, env.openbbUrl)
  }

  /** `fetchNews(category = 'all')`: the chosen service's feed. */
  function FetchNews(env: Env, replies: RealApi.NewsReplies, rt: Runtime,
                     draw: nat -> MockApi.NewsDraw, category: Category := All)
    : (r: seq<NewsItem>)
    ensures UseRealApi(env) ==> r == RealApi.FetchNews(category, replies, LiveConfig(env), rt).value
    ensures !UseRealApi(env) ==> r == MockApi.FetchNews(category, draw, rt.now) && |r| == 50
  {
    if UseRealApi(env) then RealApi.FetchNews(category, replies, LiveConfig(env), rt).value
    else MockApi.FetchNews(category, draw, rt.now)
  }

  /** Called without a category, the entry point serves the wildcard
      feed. */
  lemma FetchNewsDefaultsToAll(env: Env, replies: RealApi.NewsReplies, rt: Runtime,
                               draw: nat -> MockApi.NewsDraw)
    ensures FetchNews(env, replies, rt, draw) == FetchNews(env, replies, rt, draw, All)
    ensures !UseRealApi(env) ==>
      forall n :: n in FetchNews(env, replies, rt, draw) ==> n.category != All
  {
    if !UseRealApi(env) {
      MockApi.GeneratedBatchShape(All, 50, draw, rt.now);
    }
  }

  /** `searchNews(query)`: the chosen service's search. Live, a blank
      query is the wildcard feed and any other query yields Tavily results
      only, filed under the wildcard; synthetic, it is at most a hundred
      articles, every one of them matching the query. */
  function SearchNews(env: Env, query: string, replies: RealApi.NewsReplies, rt: Runtime,
                      draw: nat -> MockApi.NewsDraw)
    : (r: seq<NewsItem>)
    ensures UseRealApi(env) && IsBlank(query) ==> r == RealApi.FetchNews(All, replies, LiveConfig(env), rt).value
    ensures UseRealApi(env) && !IsBlank(query) ==> forall n :: n in r ==> n.source == Tavily && n.category == All
    ensures !UseRealApi(env) ==> |r| <= 100 && forall n :: n in r ==> MockApi.Matches(n, query)
    ensures UseRealApi(env) ==> r == RealApi.SearchNews(query, replies, LiveConfig(env), rt).value
    ensures !UseRealApi(env) ==> r == MockApi.SearchNews(query, draw, rt.now)
  {
    if UseRealApi(env) then RealApi.SearchNews(query, replies, LiveConfig(env), rt).value
    else MockApi.SearchNews(query, draw, rt.now)
  }

  /** What `getApiConfig` reports. */
  datatype ApiConfig = ApiConfig(useRealApi: bool, tavilyKey: string, akshareUrl: string, openbbUrl: string)

  /** `getApiConfig`: the mode, whether a Tavily key is set (已配置,
      configured, or 未配置, not configured) and the two backend URLs,
      `localhost:8000` and `localhost:8001` when unset. */
  function GetApiConfig(env: Env): (c: ApiConfig)
    ensures c.useRealApi == UseRealApi(env)
    ensures c.tavilyKey == "已配置" <==> env.tavilyKey.Some? && env.tavilyKey.value != ""
    ensures c.tavilyKey == "已配置" || c.tavilyKey == "未配置"
    ensures env.akshareUrl.Some? && env.akshareUrl.value != "" ==> c.akshareUrl == env.akshareUrl.value
    ensures env.akshareUrl.None? || env.akshareUrl.value == "" ==> c.akshareUrl == "localhost:8000"
    ensures env.openbbUrl.Some? && env.openbbUrl.value != "" ==> c.openbbUrl == env.openbbUrl.value
    ensures env.openbbUrl.None? || env.openbbUrl.value == "" ==> c.openbbUrl == "localhost:8001"
  {
    ApiConfig(
      UseRealApi(env),
      if env.tavilyKey.Some? && env.tavilyKey.value != "" then "已配置" else "未配置",
      Js.OrStr(env.akshareUrl, Some("localhost:8000")).value,
      Js.OrStr(env.openbbUrl, Some("localhost:8001")).value)
  }

  /** The reported backend URLs are the ones the live aggregator uses when
      they are set, but not when they are left at their defaults: the
      aggregator's defaults carry an `http://` scheme the report omits. An
      empty value counts as unset on both sides. */
  lemma ReportedUrlsMatchOnlyWhenSet(env: Env)
    ensures env.akshareUrl.Some? && env.akshareUrl.value != "" ==>
      GetApiConfig(env).akshareUrl == LiveConfig(env).akshareUrl
    ensures env.akshareUrl.None? || env.akshareUrl == Some("") ==>
      GetApiConfig(env).akshareUrl != LiveConfig(env).akshareUrl
    ensures env.openbbUrl.Some? && env.openbbUrl.value != "" ==>
      GetApiConfig(env).openbbUrl == LiveConfig(env).openbbUrl
    ensures env.openbbUrl.None? || env.openbbUrl == Some("") ==>
      GetApiConfig(env).openbbUrl != LiveConfig(env).openbbUrl
  {
  }
}

=== FILE: sidebar.dfy ===
/** The figures the sidebar derives from the loaded feed
    (src/components/Sidebar.tsx): whether the market widgets show, the
    per-provider and per-category counts, and the five busiest publishers. */
module Sidebar {
  import opened Types
  import opened Seqs
  import opened StableSort
  import RealApi

  /** The share and board widgets show for mainland shares and the
      wildcard. */
  predicate ShowCNStockData(category: Category) {
    category == CnStocks || category == All
  }

  /** The widgets show exactly for the categories that also reach the
      AkShare news backend. */
  lemma WidgetsFollowAkShareDomain(category: Category)
    ensures ShowCNStockData(category) <==> RealApi.AkShareEligible(category)
    ensures ShowCNStockData(category) <==> category != UsStocks && category != Crypto && category != Macro
  {
  }

  // ------------------------------------------------------------------ counts

  datatype Stats = Stats(
    total: nat,
    tavily: nat, akshare: nat, openbb: nat,
    usStocks: nat, cnStocks: nat, crypto: nat, macro: nat)

  /** Whether an article comes from provider `s`. */
  function SourceIs(s: Source): NewsItem -> bool {
    (n: NewsItem) => n.source == s
  }

  /** Whether an article is filed under category `c`. */
  function CategoryIs(c: Category): NewsItem -> bool {
    (n: NewsItem) => n.category == c
  }

  function BySource(news: seq<NewsItem>, s: Source): nat {
    Count(news, SourceIs(s))
  }

  function ByCategory(news: seq<NewsItem>, c: Category): nat {
    Count(news, CategoryIs(c))
  }

  /** A provider's count is the number of articles from that provider. */
  lemma SourceCount(news: seq<NewsItem>, src: Source)
    ensures BySource(news, src) == |set i | 0 <= i < |news| && news[i].source == src|
  {
    CountIsIndexCount(news, SourceIs(src));
    assert Positions(news, SourceIs(src)) == set i | 0 <= i < |news| && news[i].source == src;
  }

  /** A category's count is the number of articles filed under it. */
  lemma CategoryCount(news: seq<NewsItem>, c: Category)
    ensures ByCategory(news, c) == |set i | 0 <= i < |news| && news[i].category == c|
  {
    CountIsIndexCount(news, CategoryIs(c));
    assert Positions(news, CategoryIs(c)) == set i | 0 <= i < |news| && news[i].category == c;
  }

  lemma {:induction false} SourcesPartition(news: seq<NewsItem>)
    ensures BySource(news, Tavily) + BySource(news, AkShare) + BySource(news, OpenBB) == |news|
  {
    if news != [] {
      SourcesPartition(news[1..]);
      CountCons(news, SourceIs(Tavily));
      CountCons(news, SourceIs(AkShare));
      CountCons(news, SourceIs(OpenBB));
    }
  }

  lemma {:induction false} CategoriesPartition(news: seq<NewsItem>)
    ensures ByCategory(news, UsStocks) + ByCategory(news, CnStocks) + ByCategory(news, Crypto)
      + ByCategory(news, Macro) + ByCategory(news, All) == |news|
  {
    if news != [] {
      CategoriesPartition(news[1..]);
      CountCons(news, CategoryIs(UsStocks));
      CountCons(news, CategoryIs(CnStocks));
      CountCons(news, CategoryIs(Crypto));
      CountCons(news, CategoryIs(Macro));
      CountCons(news, CategoryIs(All));
    }
  }

  /** `stats`: every article is counted under exactly one provider, so the
      provider counts add up to the total; wildcard-tagged articles have no
      category column, so the category counts add up to the total less
      those. */
  function ComputeStats(news: seq<NewsItem>): (s: Stats)
    ensures s.total == |news|
    ensures s.tavily + s.akshare + s.openbb == s.total
    ensures s.usStocks + s.cnStocks + s.crypto + s.macro == s.total - ByCategory(news, All)
    ensures s.usStocks + s.cnStocks + s.crypto + s.macro <= s.total
    ensures s.tavily == |set i | 0 <= i < |news| && news[i].source == Tavily|
    ensures s.akshare == |set i | 0 <= i < |news| && news[i].source == AkShare|
    ensures s.openbb == |set i | 0 <= i < |news| && news[i].source == OpenBB|
    ensures s.usStocks == |set i | 0 <= i < |news| && news[i].category == UsStocks|
    ensures s.cnStocks == |set i | 0 <= i < |news| && news[i].category == CnStocks|
    ensures s.crypto == |set i | 0 <= i < |news| && news[i].category == Crypto|
    ensures s.macro == |set i | 0 <= i < |news| && news[i].category == Macro|
  {
    SourcesPartition(news);
    CategoriesPartition(news);
    SourceCount(news, Tavily);
    SourceCount(news, AkShare);
    SourceCount(news, OpenBB);
    CategoryCount(news, UsStocks);
    CategoryCount(news, CnStocks);
    CategoryCount(news, Crypto);
    CategoryCount(news, Macro);
    Stats(|news|,
          BySource(news, Tavily), BySource(news, AkShare), BySource(news, OpenBB),
          ByCategory(news, UsStocks), ByCategory(news, CnStocks),
          ByCategory(news, Crypto), ByCategory(news, Macro))
  }

  // -------------------------------------------------------------- publishers

  /** How often `p` is the publisher of an article of `news`. */
  function Occurrences(news: seq<NewsItem>, p: string): nat {
    if news == [] then 0
    else Occurrences(news[..|news| - 1], p) + (if news[|news| - 1].publisher == p then 1 else 0)
  }

  datatype Tally = Tally(publisher: string, count: nat)

  function PublisherOf(e: Tally): string {
    e.publisher
  }

  /** No publisher has two entries. */
  ghost predicate DistinctPublishers(t: seq<Tally>) {
    DistinctBy(t, PublisherOf)
  }

  /** One more article by `p`: its entry goes up by one, or a new entry
      with count 1 is appended (a record keeps keys in insertion order). */
  function Bump(t: seq<Tally>, p: string): (r: seq<Tally>)
    requires DistinctPublishers(t)
    ensures DistinctPublishers(r)
    ensures forall e :: e in r ==> e.publisher == p || e in t
    ensures forall e :: e in t && e.publisher != p ==> e in r
    ensures exists e :: e in r && e.publisher == p
    ensures forall e :: e in r && e.publisher == p ==>
      e.count == 1 + (if exists f :: f in t && f.publisher == p then CountOf(t, p) else 0)
  {
    if t == [] then [Tally(p, 1)]
    else if t[0].publisher == p then [Tally(p, t[0].count + 1)] + t[1..]
    else [t[0]] + Bump(t[1..], p)
  }

  /** The count recorded for `p`, 0 if none. */
  function CountOf(t: seq<Tally>, p: string): nat {
    if t == [] then 0 else if t[0].publisher == p then t[0].count else CountOf(t[1..], p)
  }

  /** `news.reduce(...)`: the publisher record, keys in order of first
      appearance. */
  function TallyOf(news: seq<NewsItem>): (r: seq<Tally>)
    ensures DistinctPublishers(r)
    ensures forall e :: e in r ==> e.count == Occurrences(news, e.publisher) && e.count >= 1
    ensures forall i :: 0 <= i < |news| ==> exists e :: e in r && e.publisher == news[i].publisher
  {
    if news == [] then []
    else
      TallyStepCounts(news, TallyOf(news[..|news| - 1]));
      TallyStepKeys(news, TallyOf(news[..|news| - 1]));
      Bump(TallyOf(news[..|news| - 1]), news[|news| - 1].publisher)
  }

  lemma CountOfMember(t: seq<Tally>, f: Tally)
    requires DistinctPublishers(t) && f in t
    ensures CountOf(t, f.publisher) == f.count
  {
    if t[0] != f {
      assert t[0].publisher != f.publisher;
      CountOfMember(t[1..], f);
    }
  }

  lemma {:induction false} OccurrencesZero(news: seq<NewsItem>, p: string)
    requires forall i :: 0 <= i < |news| ==> news[i].publisher != p
    ensures Occurrences(news, p) == 0
  {
    if news != [] {
      OccurrencesZero(news[..|news| - 1], p);
    }
  }

  /** Counting one more article keeps every recorded count exact. */
  lemma TallyStepCounts(news: seq<NewsItem>, t: seq<Tally>)
    requires news != []
    requires DistinctPublishers(t)
    requires forall e :: e in t ==> e.count == Occurrences(news[..|news| - 1], e.publisher) && e.count >= 1
    requires forall i :: 0 <= i < |news| - 1 ==> exists e :: e in t && e.publisher == news[i].publisher
    ensures forall e :: e in Bump(t, news[|news| - 1].publisher) ==>
      e.count == Occurrences(news, e.publisher) && e.count >= 1
  {
    forall e | e in Bump(t, news[|news| - 1].publisher)
      ensures e.count == Occurrences(news, e.publisher) && e.count >= 1
    {
      TallyStepEntry(news, t, e);
    }
  }

  lemma TallyStepEntry(news: seq<NewsItem>, t: seq<Tally>, e: Tally)
    requires news != []
    requires DistinctPublishers(t)
    requires forall g :: g in t ==> g.count == Occurrences(news[..|news| - 1], g.publisher) && g.count >= 1
    requires forall i :: 0 <= i < |news| - 1 ==> exists g :: g in t && g.publisher == news[i].publisher
    requires e in Bump(t, news[|news| - 1].publisher)
    ensures e.count == Occurrences(news, e.publisher) && e.count >= 1
  {
    var init := news[..|news| - 1];
    var p := news[|news| - 1].publisher;
    assert Occurrences(news, e.publisher) == Occurrences(init, e.publisher) + (if e.publisher == p then 1 else 0);
    if e.publisher == p {
      if exists f :: f in t && f.publisher == p {
        var f :| f in t && f.publisher == p;
        CountOfMember(t, f);
      } else {
        UnrecordedIsAbsent(init, t, p);
      }
    } else {
      assert e in t;
    }
  }

  /** `p` has an entry in `t`. */
  predicate Recorded(t: seq<Tally>, p: string) {
    exists e :: e in t && e.publisher == p
  }

  /** A publisher with no entry in a complete record never occurs. */
  lemma UnrecordedIsAbsent(init: seq<NewsItem>, t: seq<Tally>, p: string)
    requires forall i :: 0 <= i < |init| ==> Recorded(t, init[i].publisher)
    requires !Recorded(t, p)
    ensures Occurrences(init, p) == 0
  {
    forall i | 0 <= i < |init| ensures init[i].publisher != p {
      assert Recorded(t, init[i].publisher);
    }
    OccurrencesZero(init, p);
  }

  /** Counting one more article keeps every publisher recorded. */
  lemma TallyStepKeys(news: seq<NewsItem>, t: seq<Tally>)
    requires news != []
    requires DistinctPublishers(t)
    requires forall i :: 0 <= i < |news| - 1 ==> exists e :: e in t && e.publisher == news[i].publisher
    ensures forall i :: 0 <= i < |news| ==>
      exists e :: e in Bump(t, news[|news| - 1].publisher) && e.publisher == news[i].publisher
  {
    var p := news[|news| - 1].publisher;
    var r := Bump(t, p);
    forall i | 0 <= i < |news|
      ensures exists e :: e in r && e.publisher == news[i].publisher
    {
      if i < |news| - 1 && news[i].publisher != p {
        var g :| g in t && g.publisher == news[i].publisher;
        assert g in r;
      }
    }
  }

  /** The sort key of the ranking. */
  function Tallied(e: Tally): real {
    e.count as real
  }

  /** The ranking before the cut. */
  function Ranked(news: seq<NewsItem>): (s: seq<Tally>)
    ensures multiset(s) == multiset(TallyOf(news))
    ensures forall i, j :: 0 <= i < j < |s| ==> s[i].count >= s[j].count
  {
    SortDesc(TallyOf(news), Tallied)
  }

  lemma RankedEntries(news: seq<NewsItem>)
    ensures DistinctPublishers(Ranked(news))
    ensures forall e :: e in Ranked(news) ==> e.count == Occurrences(news, e.publisher) && e.count >= 1
    ensures forall i :: 0 <= i < |news| ==> exists e :: e in Ranked(news) && e.publisher == news[i].publisher
  {
    var t := TallyOf(news);
    var s := Ranked(news);
    DistinctByPermutation(t, s, PublisherOf);
    forall e | e in s ensures e in t {
      SortDescMembers(t, Tallied, e);
    }
    forall i | 0 <= i < |news|
      ensures exists e :: e in s && e.publisher == news[i].publisher
    {
      var e :| e in t && e.publisher == news[i].publisher;
      SortDescMembers(t, Tallied, e);
    }
  }

  /** A publisher left out of the first five of a ranking has no more
      articles than the fifth. */
  lemma CutKeepsTheTop(news: seq<NewsItem>, i: nat)
    requires i < |news|
    requires forall e :: e in Take(Ranked(news), 5) ==> e.publisher != news[i].publisher
    ensures |Ranked(news)| > 5
    ensures Occurrences(news, news[i].publisher) <= Ranked(news)[4].count
  {
    var s := Ranked(news);
    RankedEntries(news);
    var e :| e in s && e.publisher == news[i].publisher;
    var k :| 0 <= k < |s| && s[k] == e;
  }

  /** The publisher of article `i` is not among the first five ranked. */
  predicate OutsideTop(news: seq<NewsItem>, i: nat)
    requires i < |news|
  {
    forall e :: e in Take(Ranked(news), 5) ==> e.publisher != news[i].publisher
  }

  /** `CutKeepsTheTop` for every article at once. */
  lemma OutrankedOutsideTop(news: seq<NewsItem>)
    ensures forall i :: 0 <= i < |news| && OutsideTop(news, i) ==>
      |Ranked(news)| > 5 && Occurrences(news, news[i].publisher) <= Ranked(news)[4].count
  {
    forall i | 0 <= i < |news| && OutsideTop(news, i)
      ensures |Ranked(news)| > 5 && Occurrences(news, news[i].publisher) <= Ranked(news)[4].count
    {
      CutKeepsTheTop(news, i);
    }
  }

  /** `topPublishers`: the record sorted by count, largest first (ties in
      order of first appearance), cut to five entries. */
  function TopPublishers(news: seq<NewsItem>): (r: seq<Tally>)
    ensures |r| <= 5
    ensures DistinctPublishers(r)
    ensures forall e :: e in r ==> e.count == Occurrences(news, e.publisher) && e.count >= 1
    ensures forall i, j :: 0 <= i < j < |r| ==> r[i].count >= r[j].count
    ensures forall i :: 0 <= i < |news| && (forall e :: e in r ==> e.publisher != news[i].publisher) ==>
      |r| == 5 && Occurrences(news, news[i].publisher) <= r[4].count
  {
    RankedEntries(news);
    DistinctByTake(Ranked(news), 5, PublisherOf);
    OutrankedOutsideTop(news);
    Take(Ranked(news), 5)
  }
}

=== FILE: stable_sort.dfy ===
/** The ordering every service applies before returning a list:
    `Array.prototype.sort((a, b) => key(b) - key(a))`, a sort by descending
    key that section 23.1.3.30 of ECMA-262 (2023) requires to be stable. The
    model is an insertion sort; the lemmas show that it yields the one and
    only stable descending permutation of its input, so any conforming
    engine returns the same sequence. */
module StableSort {

  /** Non-increasing by `key`. */
  ghost predicate SortedDesc<T>(s: seq<T>, key: T -> real) {
    forall i, j :: 0 <= i < j < |s| ==> key(s[i]) >= key(s[j])
  }

  /** The elements of `s` whose key is `k`, in their original order. */
  function WithKey<T>(s: seq<T>, key: T -> real, k: real): (r: seq<T>)
    ensures forall i :: 0 <= i < |r| ==> key(r[i]) == k && r[i] in s
  {
    if s == [] then []
    else if key(s[0]) == k then [s[0]] + WithKey(s[1..], key, k)
    else WithKey(s[1..], key, k)
  }

  /** Equal keys keep their relative order: `r` lists the elements of every
      key in exactly the order `s` does. */
  ghost predicate StableOf<T>(r: seq<T>, s: seq<T>, key: T -> real) {
    forall k :: WithKey(r, key, k) == WithKey(s, key, k)
  }

  /** Places `x` in front of the first element whose key does not exceed
      its own, so it precedes every equal-keyed element of `s`. */
  function Insert<T>(x: T, s: seq<T>, key: T -> real): (r: seq<T>)
    ensures |r| == |s| + 1
    ensures multiset(r) == multiset(s) + multiset{x}
    ensures r[0] == x || (s != [] && r[0] == s[0])
  {
    if s == [] || key(s[0]) <= key(x) then [x] + s
    else
      assert s == [s[0]] + s[1..];
      [s[0]] + Insert(x, s[1..], key)
  }

  /** Inserting into a descending sequence keeps it descending. */
  lemma {:induction false} InsertSorted<T>(x: T, s: seq<T>, key: T -> real)
    requires SortedDesc(s, key)
    ensures SortedDesc(Insert(x, s, key), key)
  {
    if s != [] && key(s[0]) > key(x) {
      var t := Insert(x, s[1..], key);
      InsertSorted(x, s[1..], key);
      assert key(t[0]) <= key(s[0]);
      var r := [s[0]] + t;
      forall i, j | 0 <= i < j < |r|
        ensures key(r[i]) >= key(r[j])
      {
        if i == 0 && j > 1 {
          assert key(t[0]) >= key(t[j - 1]);
        }
      }
    }
  }

  /** Inserting `x` adds it in front of its equal-keyed elements and leaves
      every other key's subsequence alone. */
  lemma {:induction false} InsertWithKey<T>(x: T, s: seq<T>, key: T -> real, k: real)
    ensures WithKey(Insert(x, s, key), key, k) == (if key(x) == k then [x] else []) + WithKey(s, key, k)
  {
    if s != [] && key(s[0]) > key(x) {
      InsertWithKey(x, s[1..], key, k);
      var t := Insert(x, s[1..], key);
      assert ([s[0]] + t)[1..] == t;
    }
  }

  /** The stable sort by descending key. */
  function SortDesc<T>(s: seq<T>, key: T -> real): (r: seq<T>)
    ensures |r| == |s|
    ensures multiset(r) == multiset(s)
    ensures SortedDesc(r, key)
    ensures StableOf(r, s, key)
  {
    if s == [] then []
    else
      var t := SortDesc(s[1..], key);
      assert s == [s[0]] + s[1..];
      InsertSorted(s[0], t, key);
      assert forall k :: WithKey(Insert(s[0], t, key), key, k) == WithKey(s, key, k) by {
        forall k
          ensures WithKey(Insert(s[0], t, key), key, k) == WithKey(s, key, k)
        {
          InsertWithKey(s[0], t, key, k);
        }
      }
      Insert(s[0], t, key)
  }

  /** Sorting neither adds nor drops elements. */
  lemma SortDescMembers<T>(s: seq<T>, key: T -> real, x: T)
    ensures x in SortDesc(s, key) <==> x in s
  {
    var r := SortDesc(s, key);
    assert x in r <==> x in multiset(r);
    assert x in s <==> x in multiset(s);
  }

  /** In a descending sequence no element outranks the first. */
  lemma HeadIsMax<T>(s: seq<T>, key: T -> real, x: T)
    requires SortedDesc(s, key) && x in s
    ensures key(s[0]) >= key(x)
  {
  }

  lemma HeadHasKey<T>(s: seq<T>, key: T -> real)
    requires s != []
    ensures WithKey(s, key, key(s[0])) != []
  {
  }

  /** There is only one sorted, stable arrangement of a list: two descending
      sequences that agree key by key are the same sequence. */
  lemma {:induction false} SortedStableUnique<T>(a: seq<T>, b: seq<T>, key: T -> real)
    requires SortedDesc(a, key) && SortedDesc(b, key)
    requires StableOf(a, b, key)
    ensures a == b
  {
    if a == [] && b != [] {
      HeadHasKey(b, key);
    } else if a != [] && b == [] {
      HeadHasKey(a, key);
    } else if a != [] && b != [] {
      var ka, kb := key(a[0]), key(b[0]);
      var wa := WithKey(b, key, ka);
      assert WithKey(a, key, ka) == wa && wa != [];
      HeadIsMax(b, key, wa[0]);
      var wb := WithKey(a, key, kb);
      assert WithKey(b, key, kb) == wb && wb != [];
      HeadIsMax(a, key, wb[0]);
      assert ka == kb;
      assert a[0] == WithKey(a, key, ka)[0] == WithKey(b, key, ka)[0] == b[0];
      forall k
        ensures WithKey(a[1..], key, k) == WithKey(b[1..], key, k)
      {
        var head := if key(a[0]) == k then [a[0]] else [];
        assert WithKey(a, key, k) == head + WithKey(a[1..], key, k);
        assert WithKey(b, key, k) == head + WithKey(b[1..], key, k);
        assert WithKey(a, key, k) == WithKey(b, key, k);
        assert WithKey(a[1..], key, k) == (head + WithKey(a[1..], key, k))[|head|..];
        assert WithKey(b[1..], key, k) == (head + WithKey(b[1..], key, k))[|head|..];
      }
      SortedStableUnique(a[1..], b[1..], key);
      assert a == [a[0]] + a[1..];
      assert b == [b[0]] + b[1..];
    }
  }

  /** Hence the model agrees with every conforming engine: whatever stable
      descending permutation an engine returns is `SortDesc`'s result. */
  lemma SortDescIsTheStableSort<T>(s: seq<T>, r: seq<T>, key: T -> real)
    requires SortedDesc(r, key) && StableOf(r, s, key)
    ensures r == SortDesc(s, key)
  {
    var q := SortDesc(s, key);
    forall k
      ensures WithKey(r, key, k) == WithKey(q, key, k)
    {
      assert WithKey(r, key, k) == WithKey(s, key, k);
    }
    SortedStableUnique(r, q, key);
  }
}

=== FILE: stock_api.dfy ===
/** The market-snapshot service (src/services/stockApi.ts): the synthetic
    share and board generators, the AkShare backend tier, and the fallback
    chain Eastmoney → AkShare → synthetic behind `fetchHotStocks` and
    `fetchHotSectors`. */
module StockApi {
  import opened Wrappers
  import opened Types
  import opened Text
  import opened StableSort
  import opened Seqs
  import RealStockApi
  import Js

  // ------------------------------------------------------------------- mode

  /** Live providers are used unless the flag is exactly `'false'`. */
  predicate LiveMode(flag: Option<string>) {
    flag != Some("false")
  }

  /** The AkShare backend's base URL: the environment value when it is a
      non-empty string, otherwise the local default. */
  function AkShareBaseUrl(akshareEnv: Option<string>): (u: string)
    ensures akshareEnv.Some? && akshareEnv.value != "" ==> u == akshareEnv.value
    ensures akshareEnv.None? || akshareEnv.value == "" ==> u == "http://localhost:8000"
  {
    Js.OrStr(akshareEnv, Some("http://localhost:8000")).value
  }

  // --------------------------------------------------------- synthetic shares

  /** A share of the synthetic list and its base (previous close) price. */
  datatype MockShare = MockShare(code: string, name: string, base: real)

  const MockShares: seq<MockShare> := [
    MockShare("600519", "贵州茅台", 1680.50),
    MockShare("300750", "宁德时代", 186.80),
    MockShare("002594", "比亚迪", 256.30),
    MockShare("601012", "隆基绿能", 18.45),
    MockShare("000858", "五粮液", 128.90),
    MockShare("600036", "招商银行", 34.56),
    MockShare("601318", "中国平安", 45.67),
    MockShare("000333", "美的集团", 62.34),
    MockShare("600276", "恒瑞医药", 42.18),
    MockShare("002475", "立讯精密", 28.92)
  ]

  /** The `Math.random()` draws one synthetic share consumes, in call order. */
  datatype ShareDraw = ShareDraw(changePercent: Unit, amplitude: Unit, open: Unit,
                                 volume: Unit, amount: Unit, turnover: Unit)

  function Abs(x: real): real {
    if x < 0.0 then -x else x
  }

  /** One synthetic quote around its base price. */
  function MockQuote(m: MockShare, d: ShareDraw): (s: HotStock)
    requires m.base > 0.0
    ensures s.code == m.code && s.name == m.name && s.previousClose == m.base
    ensures -10.0 <= s.changePercent < 10.0
    ensures s.price == s.previousClose + s.change
    ensures s.change * 100.0 == m.base * s.changePercent
    ensures s.low <= s.price <= s.high && 0.0 <= s.amplitude < 8.0
    ensures 0.0 <= s.volume < 1000000000.0 && 0.0 <= s.amount < 50000000000.0
    ensures 0.0 <= s.turnover < 15.0
  {
    var changePercent := d.changePercent as real * 20.0 - 10.0;
    var change := m.base * (changePercent / 100.0);
    var price := m.base + change;
    var amplitude := d.amplitude as real * 8.0;
    var spread := m.base * amplitude / 200.0;
    assert spread >= 0.0;
    HotStock(
      m.code, m.name, price, change, changePercent,
      Pick(d.volume, 1000000000) as real, Pick(d.amount, 50000000000) as real,
      d.turnover as real * 15.0, amplitude,
      price + spread, price - spread, m.base + d.open as real * change, m.base)
  }

  /** The absolute change, the key the synthetic lists are ordered by. */
  function Swing(s: HotStock): real {
    Abs(s.changePercent)
  }

  function MockQuotes(draw: nat -> ShareDraw): (r: seq<HotStock>)
    ensures |r| == |MockShares|
    ensures forall i :: 0 <= i < |r| ==> r[i] == MockQuote(MockShares[i], draw(i))
  {
    seq(|MockShares|, i requires 0 <= i < |MockShares| => MockQuote(MockShares[i], draw(i)))
  }

  /** `generateMockHotStocks`: one quote per listed share, largest swing
      first. */
  function MockHotStocks(draw: nat -> ShareDraw): (r: seq<HotStock>)
    ensures |r| == 10
    ensures multiset(r) == multiset(MockQuotes(draw))
    ensures forall i, j :: 0 <= i < j < |r| ==> Swing(r[i]) >= Swing(r[j])
  {
    SortDesc(MockQuotes(draw), Swing)
  }

  /** Every listed share appears in the list, and every entry is one of
      the listed shares quoted around its base price, with a change in
      [-10, 10) percent and consistent price, change and range. */
  lemma MockHotStocksShape(draw: nat -> ShareDraw)
    ensures forall i :: 0 <= i < |MockShares| ==> MockQuote(MockShares[i], draw(i)) in MockHotStocks(draw)
    ensures forall s :: s in MockHotStocks(draw) ==>
      && MockShare(s.code, s.name, s.previousClose) in MockShares
      && -10.0 <= s.changePercent < 10.0
      && s.price == s.previousClose + s.change
      && s.low <= s.price <= s.high
  {
    var q := MockQuotes(draw);
    forall i | 0 <= i < |MockShares|
      ensures MockQuote(MockShares[i], draw(i)) in MockHotStocks(draw)
    {
      SortDescMembers(q, Swing, q[i]);
    }
    forall s | s in MockHotStocks(draw)
      ensures MockShare(s.code, s.name, s.previousClose) in MockShares
      ensures -10.0 <= s.changePercent < 10.0 && s.price == s.previousClose + s.change && s.low <= s.price <= s.high
    {
      SortDescMembers(q, Swing, s);
      var i :| 0 <= i < |q| && q[i] == s;
      assert MockShares[i] == MockShare(s.code, s.name, s.previousClose);
    }
  }

  // ---------------------------------------------------------- synthetic boards

  const MockBoardNames: seq<string> := [
    "新能源汽车", "光伏", "半导体", "人工智能", "医药生物",
    "军工", "白酒", "锂电池", "芯片", "数字经济",
    "储能", "机器人", "氢能源", "消费电子", "云计算"
  ]

  const MockLeaders: seq<string> := [
    "比亚迪", "隆基绿能", "中芯国际", "科大讯飞", "恒瑞医药",
    "中航重机", "贵州茅台", "宁德时代", "中微公司", "东方财富",
    "阳光电源", "埃斯顿", "亿华通", "立讯精密", "用友网络"
  ]

  /** The `Math.random()` draws one synthetic board consumes, in call order. */
  datatype BoardDraw = BoardDraw(changePercent: Unit, stockCount: Unit, upRatio: Unit,
                                 amount: Unit, netInflow: Unit)

  /** The share of rising members: 60-90% on an up day, 30-60% otherwise. */
  function UpRatio(changePercent: real, u: Unit): (r: real)
    ensures changePercent > 0.0 ==> 0.6 <= r < 0.9
    ensures changePercent <= 0.0 ==> 0.3 <= r < 0.6
  {
    if changePercent > 0.0 then 0.6 + u as real * 0.3 else 0.3 + u as real * 0.3
  }

  /** `Math.floor(count * ratio)` for a count and a ratio in [0, 1]. */
  function Portion(count: nat, ratio: real): (n: nat)
    requires 0.0 <= ratio <= 1.0
    ensures n as real <= count as real * ratio
  {
    assert count as real * ratio >= 0.0;
    (count as real * ratio).Floor
  }

  /** A board's rising and falling counts never exceed its member count,
      and on an up day the rising ones are at least as many as the falling. */
  lemma PortionsFit(count: nat, ratio: real)
    requires 0.0 <= ratio <= 1.0
    ensures Portion(count, ratio) + Portion(count, 1.0 - ratio) <= count
    ensures ratio >= 0.5 ==> Portion(count, ratio) >= Portion(count, 1.0 - ratio)
  {
    assert count as real * ratio + count as real * (1.0 - ratio) == count as real;
    if ratio >= 0.5 {
      assert count as real * ratio >= count as real * (1.0 - ratio);
    }
  }

  /** Board `i` of the synthetic list. */
  function MockBoard(i: nat, d: BoardDraw): (s: HotSector)
    requires i < |MockBoardNames|
    ensures s.name == MockBoardNames[i] && s.leadingStock == MockLeaders[i]
    ensures s.code == "BK" + NatText(1000 + i)
    ensures -8.0 <= s.changePercent < 8.0
    ensures 20 <= s.stockCount <= 119
    ensures 0 <= s.upCount && 0 <= s.downCount && s.upCount + s.downCount <= s.stockCount
    ensures s.changePercent > 0.0 ==> s.upCount >= s.downCount
    ensures 0.0 <= s.amount < 100000000000.0
    ensures -10000000000.0 <= s.netInflow < 10000000000.0
  {
    var changePercent := d.changePercent as real * 16.0 - 8.0;
    var stockCount := Pick(d.stockCount, 100) + 20;
    var ratio := UpRatio(changePercent, d.upRatio);
    PortionsFit(stockCount, ratio);
    var inflow := (d.netInflow as real * 2.0 - 1.0) * 10000000000.0;
    HotSector(
      MockBoardNames[i], "BK" + NatText(1000 + i), changePercent, MockLeaders[i],
      stockCount, Portion(stockCount, ratio), Portion(stockCount, 1.0 - ratio),
      Pick(d.amount, 100000000000) as real, inflow.Floor as real)
  }

  function MockBoards(draw: nat -> BoardDraw): (r: seq<HotSector>)
    ensures |r| == |MockBoardNames|
    ensures forall i :: 0 <= i < |r| ==> r[i] == MockBoard(i, draw(i))
  {
    seq(|MockBoardNames|, i requires 0 <= i < |MockBoardNames| => MockBoard(i, draw(i)))
  }

  function BoardSwing(s: HotSector): real {
    Abs(s.changePercent)
  }

  /** `generateMockHotSectors`: fifteen boards, largest swing first. */
  function MockHotSectors(draw: nat -> BoardDraw): (r: seq<HotSector>)
    ensures |r| == 15
    ensures multiset(r) == multiset(MockBoards(draw))
    ensures forall i, j :: 0 <= i < j < |r| ==> BoardSwing(r[i]) >= BoardSwing(r[j])
  {
    SortDesc(MockBoards(draw), BoardSwing)
  }

  /** Every synthetic board has a member count in [20, 119], rising plus
      falling counts within it, and a change in [-8, 8) percent. */
  lemma MockHotSectorsShape(draw: nat -> BoardDraw)
    ensures forall s :: s in MockHotSectors(draw) ==>
      && 20 <= s.stockCount <= 119
      && s.upCount + s.downCount <= s.stockCount
      && -8.0 <= s.changePercent < 8.0
  {
    forall s | s in MockHotSectors(draw)
      ensures 20 <= s.stockCount <= 119 && s.upCount + s.downCount <= s.stockCount
      ensures -8.0 <= s.changePercent < 8.0
    {
      SortDescMembers(MockBoards(draw), BoardSwing, s);
    }
  }

  /** Board positions map to distinct codes. */
  lemma BoardCodesDiffer(i: nat, j: nat)
    requires i != j
    ensures "BK" + NatText(1000 + i) != "BK" + NatText(1000 + j)
  {
    if "BK" + NatText(1000 + i) == "BK" + NatText(1000 + j) {
      PrefixCancel("BK", NatText(1000 + i), NatText(1000 + j));
      NatTextInjective(1000 + i, 1000 + j);
    }
  }

  /** No two boards of the generated list share a code. */
  lemma MockBoardsDistinct(draw: nat -> BoardDraw)
    ensures DistinctBy(MockBoards(draw), Code)
  {
    var q := MockBoards(draw);
    forall i, j | 0 <= i < j < |q|
      ensures Code(q[i]) != Code(q[j])
    {
      BoardCodesDiffer(i, j);
    }
  }

  /** No two synthetic boards share a code (BK1000..BK1014). */
  lemma MockBoardCodesDistinct(draw: nat -> BoardDraw)
    ensures DistinctBy(MockHotSectors(draw), Code)
  {
    MockBoardsDistinct(draw);
    DistinctByPermutation(MockBoards(draw), MockHotSectors(draw), Code);
  }

  /** The identity of a board. */
  function Code(s: HotSector): string {
    s.code
  }

  // ------------------------------------------------------------ AkShare tier

  datatype SharesBody = SharesBody(stocks: Option<seq<HotStock>>)
  datatype BoardsBody = BoardsBody(sectors: Option<seq<HotSector>>)

  /** The backend's list, `[]` when the field is missing, or the synthetic
      list on any failure: the tier itself never fails. */
  function AkShareTier<B, T>(reply: Response<B>, list: B -> Option<seq<T>>, synthetic: seq<T>)
    : (r: Result<seq<T>>)
    ensures r.Ok?
    ensures reply.Reply? && IsOkStatus(reply.status) && reply.payload.Parsed?
      ==> r.value == list(reply.payload.body).GetOr([])
    ensures !(reply.Reply? && IsOkStatus(reply.status) && reply.payload.Parsed?)
      ==> r.value == synthetic
  {
    match reply
    case Failed(_) => Ok(synthetic)
    case Reply(status, payload) =>
      if !IsOkStatus(status) then Ok(synthetic)
      else match payload
        case Unparsable(_) => Ok(synthetic)
        case Parsed(body) => Ok(list(body).GetOr([]))
  }

  // ------------------------------------------------------------ fallback chain

  datatype Tier = Eastmoney | AkShareBackend | Synthetic

  /** One tier of the chain: who it is, the request it makes and what comes
      of it. */
  datatype Attempt<T> = Attempt(tier: Tier, request: Request, outcome: Result<seq<T>>)

  /** The list a chain resolves to, the tier that produced it and the
      requests made on the way. */
  datatype Served<T> = Served(requests: seq<Request>, tier: Tier, value: seq<T>)

  function RequestsOf<T>(attempts: seq<Attempt<T>>): (r: seq<Request>)
    ensures |r| == |attempts|
    ensures forall i :: 0 <= i < |r| ==> r[i] == attempts[i].request
  {
    seq(|attempts|, i requires 0 <= i < |attempts| => attempts[i].request)
  }

  /** The requests of a prefix of a chain are the first tier's request
      followed by those of the matching prefix of the rest. */
  lemma RequestsOfPrefixes<T>(attempts: seq<Attempt<T>>)
    requires attempts != []
    ensures forall k :: 1 <= k <= |attempts| ==>
      RequestsOf(attempts[..k]) == [attempts[0].request] + RequestsOf(attempts[1..][..k - 1])
  {
    forall k | 1 <= k <= |attempts|
      ensures RequestsOf(attempts[..k]) == [attempts[0].request] + RequestsOf(attempts[1..][..k - 1])
    {
      assert attempts[..k] == [attempts[0]] + attempts[1..][..k - 1];
    }
  }

  /** The reference reading of a fallback chain: try each tier once, in
      order, stop at the first that does not fail, and serve the synthetic
      list when all fail. */
  function RunTiers<T>(attempts: seq<Attempt<T>>, synthetic: seq<T>): Served<T> {
    if attempts == [] then Served([], Synthetic, synthetic)
    else match attempts[0].outcome
      case Ok(v) => Served([attempts[0].request], attempts[0].tier, v)
      case Err(_) =>
        var rest := RunTiers(attempts[1..], synthetic);
        Served([attempts[0].request] + rest.requests, rest.tier, rest.value)
  }

  /** When every tier fails, every tier was asked, in order, and the
      synthetic list is served. */
  lemma {:induction false} RunTiersAllFail<T>(attempts: seq<Attempt<T>>, synthetic: seq<T>)
    requires forall k :: 0 <= k < |attempts| ==> attempts[k].outcome.Err?
    ensures RunTiers(attempts, synthetic) == Served(RequestsOf(attempts), Synthetic, synthetic)
  {
    if attempts != [] {
      assert attempts[0].outcome.Err?;
      RunTiersAllFail(attempts[1..], synthetic);
      RequestsOfPrefixes(attempts);
      assert attempts[..|attempts|] == attempts;
    }
  }

  /** The first tier that does not fail is the one served, after exactly
      the requests of the tiers up to and including it. */
  lemma {:induction false} RunTiersFirstOk<T>(attempts: seq<Attempt<T>>, synthetic: seq<T>, k: nat)
    requires k < |attempts| && attempts[k].outcome.Ok?
    requires forall j :: 0 <= j < k ==> attempts[j].outcome.Err?
    ensures RunTiers(attempts, synthetic)
      == Served(RequestsOf(attempts[..k + 1]), attempts[k].tier, attempts[k].outcome.value)
  {
    if k == 0 {
      assert RequestsOf(attempts[..1]) == [attempts[0].request];
    } else {
      assert attempts[0].outcome.Err?;
      RunTiersFirstOk(attempts[1..], synthetic, k - 1);
      RequestsOfPrefixes(attempts);
    }
  }

  /** The chain of `fetchHotStocks`/`fetchHotSectors` as written: a try
      around the Eastmoney call whose catch tries the AkShare tier, whose
      own catch falls back to the synthetic list. */
  function Chain<T>(live: bool, primary: Result<seq<T>>, primaryRequest: Request,
                    secondary: Result<seq<T>>, secondaryRequest: Request, synthetic: seq<T>)
    : (r: Served<T>)
    ensures !live ==> r == Served([], Synthetic, synthetic)
    ensures live ==> r == RunTiers([Attempt(Eastmoney, primaryRequest, primary),
                                    Attempt(AkShareBackend, secondaryRequest, secondary)], synthetic)
    ensures live ==> (r.tier == Synthetic <==> primary.Err? && secondary.Err?)
  {
    var attempts := [Attempt(Eastmoney, primaryRequest, primary),
                     Attempt(AkShareBackend, secondaryRequest, secondary)];
    if !live then Served([], Synthetic, synthetic)
    else match primary
      case Ok(v) =>
        RunTiersFirstOk(attempts, synthetic, 0);
        Served([primaryRequest], Eastmoney, v)
      case Err(_) =>
        match secondary
        case Ok(v) =>
          RunTiersFirstOk(attempts, synthetic, 1);
          assert attempts[..2] == attempts;
          Served([primaryRequest, secondaryRequest], AkShareBackend, v)
        case Err(_) =>
          RunTiersAllFail(attempts, synthetic);
          Served([primaryRequest, secondaryRequest], Synthetic, synthetic)
  }

  /** `fetchHotStocks`. */
  function FetchHotStocks(flag: Option<string>, akshareEnv: Option<string>,
                          eastmoney: Response<RealStockApi.ClistBody<RealStockApi.StockRow>>,
                          akshare: Response<SharesBody>, draw: nat -> ShareDraw)
    : (r: Served<HotStock>)
    ensures !LiveMode(flag) ==> r.requests == [] && r.value == MockHotStocks(draw)
    ensures LiveMode(flag) ==>
      r.tier != Synthetic && 1 <= |r.requests| <= 2 && r.requests[0] == Get(RealStockApi.StocksUrl)
    ensures LiveMode(flag) && RealStockApi.FetchRealHotStocks(eastmoney).Ok? ==>
      r.requests == [Get(RealStockApi.StocksUrl)] && r.value == RealStockApi.FetchRealHotStocks(eastmoney).value
    ensures |r.requests| == 2 ==> r.requests[1] == Get(AkShareBaseUrl(akshareEnv) + "/stock/hot")
  {
    var synthetic := MockHotStocks(draw);
    Chain(LiveMode(flag),
          RealStockApi.FetchRealHotStocks(eastmoney), Get(RealStockApi.StocksUrl),
          AkShareTier(akshare, (b: SharesBody) => b.stocks, synthetic), Get(AkShareBaseUrl(akshareEnv) + "/stock/hot"),
          synthetic)
  }

  /** `fetchHotSectors`. */
  function FetchHotSectors(flag: Option<string>, akshareEnv: Option<string>,
                           eastmoney: Response<RealStockApi.ClistBody<RealStockApi.SectorRow>>,
                           akshare: Response<BoardsBody>, draw: nat -> BoardDraw)
    : (r: Served<HotSector>)
    ensures !LiveMode(flag) ==> r.requests == [] && r.value == MockHotSectors(draw)
    ensures LiveMode(flag) ==>
      r.tier != Synthetic && 1 <= |r.requests| <= 2 && r.requests[0] == Get(RealStockApi.SectorsUrl)
    ensures LiveMode(flag) && RealStockApi.FetchRealHotSectors(eastmoney).Ok? ==>
      r.requests == [Get(RealStockApi.SectorsUrl)] && r.value == RealStockApi.FetchRealHotSectors(eastmoney).value
    ensures |r.requests| == 2 ==> r.requests[1] == Get(AkShareBaseUrl(akshareEnv) + "/sector/hot")
  {
    var synthetic := MockHotSectors(draw);
    Chain(LiveMode(flag),
          RealStockApi.FetchRealHotSectors(eastmoney), Get(RealStockApi.SectorsUrl),
          AkShareTier(akshare, (b: BoardsBody) => b.sectors, synthetic), Get(AkShareBaseUrl(akshareEnv) + "/sector/hot"),
          synthetic)
  }

  /** When Eastmoney fails the AkShare tier answers, with its backend's list
      when its reply is good and with synthetic shares otherwise. */
  lemma HotStocksAfterEastmoneyFails(flag: Option<string>, akshareEnv: Option<string>,
                                     eastmoney: Response<RealStockApi.ClistBody<RealStockApi.StockRow>>,
                                     akshare: Response<SharesBody>, draw: nat -> ShareDraw)
    requires LiveMode(flag) && RealStockApi.FetchRealHotStocks(eastmoney).Err?
    ensures var r := FetchHotStocks(flag, akshareEnv, eastmoney, akshare, draw);
      && r.requests == [Get(RealStockApi.StocksUrl), Get(AkShareBaseUrl(akshareEnv) + "/stock/hot")]
      && r.tier == AkShareBackend
      && (akshare.Reply? && IsOkStatus(akshare.status) && akshare.payload.Parsed? ==>
            r.value == akshare.payload.body.stocks.GetOr([]))
      && (!(akshare.Reply? && IsOkStatus(akshare.status) && akshare.payload.Parsed?) ==>
            r.value == MockHotStocks(draw))
  {
  }

  /** When Eastmoney fails the AkShare tier answers, with its backend's
      boards when its reply is good and with synthetic boards otherwise. */
  lemma HotSectorsAfterEastmoneyFails(flag: Option<string>, akshareEnv: Option<string>,
                                      eastmoney: Response<RealStockApi.ClistBody<RealStockApi.SectorRow>>,
                                      akshare: Response<BoardsBody>, draw: nat -> BoardDraw)
    requires LiveMode(flag) && RealStockApi.FetchRealHotSectors(eastmoney).Err?
    ensures var r := FetchHotSectors(flag, akshareEnv, eastmoney, akshare, draw);
      && r.requests == [Get(RealStockApi.SectorsUrl), Get(AkShareBaseUrl(akshareEnv) + "/sector/hot")]
      && r.tier == AkShareBackend
      && (akshare.Reply? && IsOkStatus(akshare.status) && akshare.payload.Parsed? ==>
            r.value == akshare.payload.body.sectors.GetOr([]))
      && (!(akshare.Reply? && IsOkStatus(akshare.status) && akshare.payload.Parsed?) ==>
            r.value == MockHotSectors(draw))
  {
  }
}

=== FILE: text.dfy ===
/** String primitives the services rely on: decimal rendering of counters,
    `String.prototype.trim`, `toLowerCase`, `includes` and `replace`. */
module Text {
  import opened Wrappers

  // ---------------------------------------------------------------- decimals

  function DigitChar(d: nat): (c: char)
    requires d < 10
  {
    "0123456789"[d]
  }

  predicate IsDigit(c: char) {
    '0' <= c <= '9'
  }

  /** The decimal rendering of a non-negative integer, as a template literal
      `${n}` prints it. */
  function NatText(n: nat): (s: string)
    ensures 1 <= |s|
    ensures |s| == 1 <==> n < 10
    ensures forall i :: 0 <= i < |s| ==> IsDigit(s[i])
    ensures s[|s| - 1] == DigitChar(n % 10)
  {
    if n < 10 then [DigitChar(n)] else NatText(n / 10) + [DigitChar(n % 10)]
  }

  /** Different numbers print differently. */
  lemma {:induction false} NatTextInjective(a: nat, b: nat)
    requires NatText(a) == NatText(b)
    ensures a == b
  {
    if a >= 10 && b >= 10 {
      var sa, sb := NatText(a), NatText(b);
      assert NatText(a / 10) == sa[..|sa| - 1];
      assert NatText(b / 10) == sb[..|sb| - 1];
      NatTextInjective(a / 10, b / 10);
      assert DigitChar(a % 10) == DigitChar(b % 10);
    }
  }

  /** Equal strings that end in the same suffix agree before it. */
  lemma SuffixCancel(x: string, y: string, suffix: string)
    requires x + suffix == y + suffix
    ensures x == y
  {
    assert x == (x + suffix)[..|x|];
    assert y == (y + suffix)[..|y|];
  }

  /** Equal strings that start with the same prefix agree after it. */
  lemma PrefixCancel(prefix: string, x: string, y: string)
    requires prefix + x == prefix + y
    ensures x == y
  {
    assert x == (prefix + x)[|prefix|..];
    assert y == (prefix + y)[|prefix|..];
  }

  // ------------------------------------------------------------------- trim

  /** The characters `String.prototype.trim` strips: ECMAScript WhiteSpace
      (tab, vertical tab, form feed, space, no-break space, byte order mark and
      the Unicode space separators) and LineTerminator (LF, CR, LS, PS). */
  predicate IsWhite(c: char) {
    c == '\t' || c == '\n' || c == '\U{B}' || c == '\U{C}' || c == '\r' || c == ' '
    || c == '\U{A0}' || c == '\U{1680}' || ('\U{2000}' <= c <= '\U{200A}')
    || c == '\U{2028}' || c == '\U{2029}' || c == '\U{202F}' || c == '\U{205F}'
    || c == '\U{3000}' || c == '\U{FEFF}'
  }

  /** A string made of white space only (the empty string included). */
  predicate IsBlank(s: string) {
    forall i :: 0 <= i < |s| ==> IsWhite(s[i])
  }

  function TrimStart(s: string): (r: string)
    ensures |r| <= |s| && r == s[|s| - |r|..]
    ensures r != [] ==> !IsWhite(r[0])
    ensures IsBlank(s[..|s| - |r|])
  {
    if s != [] && IsWhite(s[0]) then TrimStart(s[1..]) else s
  }

  function TrimEnd(s: string): (r: string)
    ensures |r| <= |s| && r == s[..|r|]
    ensures r != [] ==> !IsWhite(r[|r| - 1])
    ensures IsBlank(s[|r|..])
  {
    if s != [] && IsWhite(s[|s| - 1]) then TrimEnd(s[..|s| - 1]) else s
  }

  /** `s.trim()`: white space removed from both ends. */
  function Trim(s: string): (r: string)
  {
    TrimEnd(TrimStart(s))
  }

  /** `!s.trim()` holds exactly for the blank strings. */
  lemma TrimEmptyIffBlank(s: string)
    ensures Trim(s) == [] <==> IsBlank(s)
  {
    var t := TrimStart(s);
    if Trim(s) == [] {
      assert IsBlank(t[0..]);
      assert s == s[..|s| - |t|] + t;
    }
  }

  // --------------------------------------------------------- lower-casing

  /** `toLowerCase` on one character (the Basic Latin letters). */
  function LowerChar(c: char): char {
    if 'A' <= c <= 'Z' then (c as int + 32) as char else c
  }

  function Lower(s: string): (r: string)
    ensures |r| == |s|
    ensures forall i :: 0 <= i < |s| ==> r[i] == LowerChar(s[i])
  {
    seq(|s|, i requires 0 <= i < |s| => LowerChar(s[i]))
  }

  // ------------------------------------------------------ substring search

  /** `pat` occurs in `s` starting at position `j`. */
  predicate MatchAt(s: string, pat: string, j: nat) {
    j + |pat| <= |s| && s[j..j + |pat|] == pat
  }

  lemma MatchShift(s: string, pat: string)
    requires s != []
    ensures forall j: nat :: 1 <= j ==> (MatchAt(s, pat, j) <==> MatchAt(s[1..], pat, j - 1))
  {
    forall j: nat | 1 <= j
      ensures MatchAt(s, pat, j) <==> MatchAt(s[1..], pat, j - 1)
    {
      if j + |pat| <= |s| {
        assert s[1..][j - 1..j - 1 + |pat|] == s[j..j + |pat|];
      }
    }
  }

  /** `s.indexOf(pat)`: the first position where `pat` occurs, if any. */
  function IndexOf(s: string, pat: string): (r: Option<nat>)
    ensures r.Some? ==> MatchAt(s, pat, r.value)
    ensures r.Some? ==> forall j: nat :: j < r.value ==> !MatchAt(s, pat, j)
    ensures r.None? ==> forall j: nat :: !MatchAt(s, pat, j)
    decreases |s|
  {
    if |pat| > |s| then None
    else if s[..|pat|] == pat then Some(0)
    else
      MatchShift(s, pat);
      match IndexOf(s[1..], pat)
      case None => None
      case Some(k) => Some(k + 1)
  }

  /** `s.includes(pat)`. */
  predicate Contains(s: string, pat: string) {
    IndexOf(s, pat).Some?
  }

  /** `includes` holds exactly when the pattern occurs somewhere; in
      particular every string includes the empty string. */
  lemma ContainsIff(s: string, pat: string)
    ensures Contains(s, pat) <==> exists j: nat :: MatchAt(s, pat, j)
    ensures Contains(s, [])
  {
    assert MatchAt(s, [], 0);
  }

  /** `s.replace(pat, rep)` with a string pattern: only the first
      occurrence is replaced. */
  function ReplaceFirst(s: string, pat: string, rep: string): (r: string)
    ensures !Contains(s, pat) ==> r == s
    ensures Contains(s, pat) ==> |r| == |s| - |pat| + |rep|
  {
    match IndexOf(s, pat)
    case None => s
    case Some(i) => s[..i] + rep + s[i + |pat|..]
  }
}

=== FILE: types.dfy ===
/** The entities every service produces (src/types/index.ts) and the shapes
    of the boundary the services talk across: requests sent, replies
    received, and the runtime primitives (`Date.now`, URL parsing, number
    printing, `Math.random`) the code consults. */
module Types {
  import opened Wrappers

  // ---------------------------------------------------------------- entities

  /** The five topical tags; `All` is the wildcard. */
  datatype Category = UsStocks | CnStocks | Crypto | Macro | All

  /** The tag as the code spells it. */
  function CategoryId(c: Category): string {
    match c
    case UsStocks => "us-stocks"
    case CnStocks => "cn-stocks"
    case Crypto => "crypto"
    case Macro => "macro"
    case All => "all"
  }

  datatype Source = Tavily | AkShare | OpenBB

  datatype Sentiment = Positive | Negative | Neutral

  /** One article; `timestamp` is in milliseconds since the epoch. */
  datatype NewsItem = NewsItem(
    id: string,
    title: string,
    source: Source,
    category: Category,
    url: string,
    publisher: string,
    timestamp: int,
    summary: Option<string>,
    sentiment: Option<Sentiment>,
    readTime: Option<int>)

  /** One quoted share. Prices are in yuan, percentages as printed. */
  datatype HotStock = HotStock(
    code: string,
    name: string,
    price: real,
    change: real,
    changePercent: real,
    volume: real,
    amount: real,
    turnover: real,
    amplitude: real,
    high: real,
    low: real,
    open: real,
    previousClose: real)

  /** One industry or concept board. */
  datatype HotSector = HotSector(
    name: string,
    code: string,
    changePercent: real,
    leadingStock: string,
    stockCount: int,
    upCount: int,
    downCount: int,
    amount: real,
    netInflow: real)

  // ----------------------------------------------------------------- boundary

  /** A request the services issue: a GET, or the search POST whose body
      carries the query text. */
  datatype Request = Get(url: string) | Post(url: string, query: string)

  /** The body of a reply: decoded JSON, or the message `response.json()`
      throws when the body is not JSON. */
  datatype Payload<B> = Parsed(body: B) | Unparsable(message: string)

  /** What `fetch` produces: a rejected promise (network failure) or a reply
      with a status code and a body. */
  datatype Response<B> = Failed(message: string) | Reply(status: int, payload: Payload<B>)

  /** `response.ok`. */
  predicate IsOkStatus(status: int) {
    200 <= status <= 299
  }

  /** A value together with the requests made to obtain it. */
  datatype Fetched<T> = Fetched(requests: seq<Request>, value: T)

  /** The primitives of the JavaScript runtime the services consult:
      `Date.now()`, the host name `new URL(u).hostname` extracts (absent
      when the constructor throws) and the way a template literal prints a
      number. */
  datatype Runtime = Runtime(
    now: nat,
    hostname: string -> Option<string>,
    numberText: real -> string)

  /** A value `Math.random()` can return. */
  newtype Unit = r: real | 0.0 <= r < 1.0

  /** A fraction below one of a positive quantity stays below it. */
  lemma ScaleBelow(u: real, n: real)
    requires 0.0 <= u < 1.0 && n > 0.0
    ensures 0.0 <= u * n < n
  {
    var rest := 1.0 - u;
    assert n - u * n == rest * n;
    assert rest * n > 0.0;
  }

  /** `Math.floor(u * n)`: a uniform index below `n`. */
  function Pick(u: Unit, n: nat): (i: nat)
    requires n > 0
    ensures i < n
  {
    ScaleBelow(u as real, n as real);
    (u as real * n as real).Floor
  }
}

=== FILE: use_news.dfy ===
/** The feed state of the page (src/hooks/useNews.ts): which service call a
    load makes, and how `news`, `loading` and `error` move through it. The
    hook imports the synthetic service, src/services/api.ts, directly. */
module UseNews {
  import opened Wrappers
  import opened Types
  import opened Text
  import MockApi

  datatype NewsState = NewsState(news: seq<NewsItem>, loading: bool, error: Option<string>)

  /** Before the first load: no articles, loading, no error. */
  const Initial: NewsState := NewsState([], true, None)

  /** The service call a load makes. */
  datatype Call = Search(query: string) | Fetch(category: Category)

  /** A search for a query with something besides white space in it,
      otherwise the category feed. */
  function CallFor(category: Category, searchQuery: string): (c: Call)
    ensures !IsBlank(searchQuery) ==> c == Search(searchQuery)
    ensures IsBlank(searchQuery) ==> c == Fetch(category)
  {
    TrimEmptyIffBlank(searchQuery);
    if Trim(searchQuery) != [] then Search(searchQuery) else Fetch(category)
  }

  /** What a thrown value looks like to the catch: an `Error` with its
      message, or anything else. */
  datatype Thrown = ErrorObject(message: string) | OtherValue

  /** How the awaited call settled. */
  datatype Settled = Resolved(data: seq<NewsItem>) | Rejected(thrown: Thrown)

  /** The start of a load: loading, error cleared, articles kept. */
  function Begin(st: NewsState): (s: NewsState)
    ensures s.loading && s.error.None? && s.news == st.news
  {
    st.(loading := true, error := None)
  }

  /** The end of a load (the `try`/`catch`/`finally`). */
  function Finish(st: NewsState, outcome: Settled): (s: NewsState)
    ensures !s.loading
    ensures outcome.Resolved? ==> s.news == outcome.data && s.error == st.error
    ensures outcome.Rejected? ==> s.news == st.news && s.error.Some?
  {
    match outcome
    case Resolved(data) => st.(news := data, loading := false)
    case Rejected(thrown) =>
      var message := match thrown
        case ErrorObject(m) => m
        case OtherValue => "Failed to load news";
      st.(error := Some(message), loading := false)
  }

  /** `loadNews` (and `refresh`, which runs the same load): whatever the
      outcome, loading ends; a success replaces the articles and leaves no
      error; a failure keeps the articles and reports the error's message,
      or a fixed one for a non-`Error` value. */
  function LoadNews(st: NewsState, outcome: Settled): (s: NewsState)
    ensures !s.loading
    ensures outcome.Resolved? ==> s.news == outcome.data && s.error.None?
    ensures outcome.Rejected? ==> s.news == st.news
    ensures outcome == Rejected(OtherValue) ==> s.error == Some("Failed to load news")
    ensures forall m :: outcome == Rejected(ErrorObject(m)) ==> s.error == Some(m)
  {
    Finish(Begin(st), outcome)
  }

  /** The call made against the synthetic service. */
  function Serve(call: Call, draw: nat -> MockApi.NewsDraw, now: nat): seq<NewsItem> {
    match call
    case Search(q) => MockApi.SearchNews(q, draw, now)
    case Fetch(c) => MockApi.FetchNews(c, draw, now)
  }

  /** A load against the synthetic service never fails: it always ends
      with no error, fifty articles for a category feed and at most a
      hundred for a search. */
  lemma LoadFromMockNeverFails(st: NewsState, category: Category, searchQuery: string,
                               draw: nat -> MockApi.NewsDraw, now: nat)
    ensures var s := LoadNews(st, Resolved(Serve(CallFor(category, searchQuery), draw, now)));
      && !s.loading && s.error.None?
      && (IsBlank(searchQuery) ==> |s.news| == 50)
      && |s.news| <= 100
  {
  }

  /** The first load of a page: it always ends loading; if it fails the
      page shows no articles and an error, if it succeeds exactly the
      articles it got. */
  lemma FirstLoad(outcome: Settled)
    ensures var s := LoadNews(Initial, outcome);
      && !s.loading
      && (outcome.Rejected? ==> s.news == [] && s.error.Some?)
      && (outcome.Resolved? ==> s.news == outcome.data && s.error.None?)
  {
  }
}

=== FILE: wrappers.dfy ===
/** Wrappers used throughout the model: an optional value
    (JavaScript's `undefined`) and a result that either carries a value or
    the message of a thrown `Error`. */
module Wrappers {

  datatype Option<+T> = None | Some(value: T) {

    /** The value, or `default` when absent. */
    function GetOr(default: T): T {
      match this
      case Some(v) => v
      case None => default
    }
  }

  datatype Result<+R> = Ok(value: R) | Err(message: string)
}
